=== FILE: README.md ===
# Portfolio front end: rendering, stats polling and navigation in Dafny

This project models the deterministic core of the Boulado portfolio script (`script.js`). That script is a static
single-page front end with four parts:

- **Card rendering.** `displayProjects`, `displayWorkedGroups` and `displayAnimations` turn a list of
  loosely-typed records into the children of a named container. The result is one "no data" placeholder, or
  one card per record. Each card gets default title and link text, a deferred image source, and stat
  placeholders whose ids come from the record's id.
- **Games stats poller.** `fetchAllGameStatsOnce` and `startStatsPolling` collect the `playing-<id>`
  placeholders on the page. Ids are stripped of their prefix, empty ones are dropped, duplicates are removed
  (first occurrence wins) and at most fifty are kept. One batched request goes out. Its answer is written into
  the `playing-`/`visits-` placeholders. A failure raises a counter and replaces the single recurring timer
  with one at the backoff interval `max(9000, min(30000, 2000 · 2^tries))`.
- **Groups stats poller.** `fetchGroupStatsOnce` makes one request per `memberCount-<id>` placeholder, one
  after the other. It goes through a proxy when one is configured. Each failure is caught on its own.
- **Navigation.** `setupNavigation`/`activateSection` keep the active flags on sections and sidebar links in
  step with the location fragment, and push the fragment onto the session history.
- **Image rotation.** `initImageRotation` advances the showcase index modulo three.

The network, timers and DOM are abstracted as follows:

- Each request's outcome is an input. A games poll receives `Success(data)` or `Failure`. A group request
  receives `Fetched(memberCount?)` or `FetchError`.
- The recurring games timer is a single `Option<interval>` field. Ticks are events.
- The page is modelled in three parts. Containers are a map from container id to children. The elements with
  ids, in document order, carry a displayed number and a `loaded` flag. Navigation has its own elements, links
  and session history.

## Modules

- `wrappers.dfy` (`Wrappers`): `Option`.
- `text.dfy` (`JsText`): JavaScript string idioms. These are truthiness and `||` defaults on optional
  fields, prefix stripping, `substring(1)`, decimal rendering of numbers in template literals, and the
  first-match rule of `getElementById`.
- `dom.dfy` (`Dom`): stat elements. It covers `updateStatElement` and sequences of such writes, with
  last-write-wins and frame lemmas, plus the prefix id query.
- `render.dfy` (`Render`): records, view nodes and the three render functions.
- `games_poller.dfy` (`GamesPoller`): batching, backoff, one poll, start, and whole polling sessions.
- `groups_poller.dfy` (`GroupsPoller`): the sequential per-group loop.
- `navigation.dfy` (`Navigation`): activation, guarded hash handling, and history traversal.
- `rotation.dfy` (`Rotation`): the showcase index.
- `wiring.dfy` (`Wiring`): the placeholders a render creates are exactly what the pollers later query.

Points where the code's behaviour is easy to misread:

- **Success keeps the timer interval.** A successful games poll resets `tries` to 0 but leaves the recurring
  timer as it is (script.js:290). A timer installed by an earlier failure keeps its longer interval until
  `startStatsPolling` runs again. See `GamesPoller.PollOnce`.
- **The backoff delay never drops below 9000.** The catch block installs `max(9000, min(30000, 2000 · 2^N))`
  after the `N`-th consecutive failure (script.js:294-296), so after one or two failures the wait is still
  9000.
- **`startStatsPolling` does not reset `tries`.** The request it starts is not awaited, so the base timer is
  installed before that request's answer is handled. A failing answer replaces the base timer at once.
- **A click can leave no section active.** A sidebar click activates its target without a guard
  (script.js:103-108). A target that names no element leaves no section active, and a target that names an
  element which is not a section gives that element the flag. What holds after every event is "at most one
  section is active".
- **The image fallback is never disarmed.** Each card image's inline `onerror` sets the default image and
  stays installed. This is left out (see below).

## Model

| member | source | states |
|---|---|---|
| `JsText.OrElse` | script.js:178-180 | `field or fallback` yields the field when it is present and non-empty, else the fallback; with a non-empty fallback the result is never empty |
| `JsText.FirstIndex` | script.js:161 | getElementById over ids in document order returns the first element with that id, and nothing for the empty id or an id no element has |
| `JsText.DecimalInjective` | script.js:285-286 | distinct universe ids render to distinct decimal strings, so the `playing-`/`visits-` ids built from them never collide |
| `Dom.Find` | script.js:161 | the element an id resolves to is the first in document order carrying that id |
| `Dom.UpdateStat` | script.js:160-166 | with no element for the id the page is unchanged; otherwise the first such element shows the value and is marked loaded, and every other element is unchanged; ids never change |
| `Dom.ApplyWrites` | script.js:283-288 | a sequence of stat updates never changes the page's ids or length |
| `Dom.ApplyWritesFrame` | script.js:160-166 | an element that no write with a value resolves to ends exactly as it was |
| `Dom.ApplyWritesLastWins` | script.js:160-166 | the last write with a value for an id decides what its element shows, whatever came before or after for other ids |
| `Dom.IdsWithPrefix` | script.js:273-274 | the prefix query yields at most one id per element of the page |
| `Dom.IdsWithPrefixFromPage` | script.js:273-274 | an id is yielded exactly when its prefixed form is the id of some element on the page |
| `Dom.IdsWithPrefixConcat` | script.js:273-274 | the query walks the page in document order: on two concatenated pages it yields the first page's ids followed by the second's |
| `Dom.IdsWithPrefixSameIds` | script.js:273-274 | the id query depends only on ids, so value writes never change what a later poll collects |
| `Render.RenderProjects` | script.js:168-204 | an absent or empty list gives exactly one "No projects" placeholder. Otherwise there is one card per record in input order. Every card has a non-empty title, link, image source and alt text, and its stats start at 0. Game-container cards have the Roblox badge, "gameTitle or Untitled Project", and stats `playing-<universeId or 0>` and `visits-<universeId or 0>`. Other cards have "title or Untitled", no badge and no stats. The link is "gameUrl or #" and the deferred image is "image or DEFAULT_IMAGE" |
| `Render.RenderGroups` | script.js:208-238 | placeholder for an absent or empty list. Otherwise one Group-badged card per record, in order. The title is "groupTitle or Untitled Group", the link "groupUrl or #", the single stat is `memberCount-<groupId or 0>` starting at 0, and the image is "image or DEFAULT_IMAGE" |
| `Render.RenderAnimations` | script.js:242-261 | placeholder for an absent or empty list. Otherwise one card per record, in order, with no badge and no stats. The title is "title or Untitled Animation", the link "url or #", and the image is "image or DEFAULT_IMAGE" |
| `Render.Replace` | script.js:169-175 | a render touches only its own container: a missing container makes it a no-op, and every other container keeps its children |
| `Render.DisplayProjectsDiscardsPrevious` | script.js:171-176 | the previous children are discarded: the result does not depend on them, and rendering the same list again changes nothing |
| `Render.DisplayProjects` | script.js:168-176 | a missing container leaves the page as it was; otherwise the named container holds exactly the rendered children and every other container keeps its children |
| `Render.DisplayWorkedGroups` | script.js:208-213 | the render always targets `workedContainer`: it is a no-op without that container, fills it with the group cards otherwise, and leaves every other container alone |
| `Render.DisplayAnimations` | script.js:242-247 | the render always targets `animationsContainer`: it is a no-op without that container, fills it with the animation cards otherwise, and leaves every other container alone |
| `Render.DisplaysDiscardPrevious` | script.js:209-247 | the groups and animations renders do not depend on what their containers held, and repeating one changes nothing |
| `Render.DisplaysCommute` | script.js:168-247 | a projects render into any container other than the groups and animations ones commutes with the groups render and with the animations render, two projects renders into different containers commute, and the groups and animations renders commute; so the page does not depend on the order of the fallback calls or of the snapshots |
| `GamesPoller.BackoffInterval` | script.js:293-296 | the interval installed after a failure always lies between 9000 and 30000 |
| `GamesPoller.Pow2Monotone` | script.js:294 | `2^a <= 2^b` whenever `a <= b` |
| `GamesPoller.BackoffMonotone` | script.js:293-296 | more consecutive failures never give a shorter interval |
| `GamesPoller.BackoffSaturates` | script.js:294 | from the fourth consecutive failure on, the interval is the 30-second cap |
| `GamesPoller.NonEmpty` | script.js:275 | `filter(Boolean)` keeps exactly the non-empty ids (membership) |
| `GamesPoller.NonEmptyConcat` | script.js:275 | the filter works element by element: filtering two lists joined is joining their filtered forms, so order and repeated ids are kept |
| `GamesPoller.NonEmptyKeepsAll` | script.js:275 | a list without empty ids passes the filter unchanged |
| `GamesPoller.Dedup` | script.js:277 | the Set conversion yields each id exactly once and no others; it is empty only for an empty list |
| `GamesPoller.DedupFirstOccurrenceOrder` | script.js:277 | de-duplicated ids appear in the order of their first occurrence |
| `GamesPoller.Batch` | script.js:273-277 | the requested ids are distinct, non-empty, at most fifty, each from a `playing-` element; the batch is empty exactly when no non-empty id exists; when there are at most fifty distinct ids all are requested |
| `GamesPoller.BatchIsFirstFifty` | script.js:273-277 | the batch is the first `min(n, 50)` of the `n` distinct ids, in the order of their first occurrence in the page; an id left out occurs first after every id that was kept, and only when fifty were kept |
| `GamesPoller.CollectBatch` | script.js:273-277 | a single pass over the page with a seen-set computes exactly the batch |
| `GamesPoller.PollOnce` | script.js:271-298 | no ids means no request and no change. Otherwise the batch is requested. A failure (an error before any write) raises `tries` by one and replaces the timer with the backoff interval for the new count, leaving the page alone. A success sets `tries` to 0, keeps the timer, and leaves the page with the response's writes made; a body without `data` changes nothing. Ids never change |
| `GamesPoller.PollOnceShowsEntries` | script.js:282-289 | after a poll whose response succeeded, the placeholders of each truthy universe id in the response show its last entry's `playing ?? 0` and `visits ?? 0` and are marked loaded |
| `GamesPoller.StartPolling` | script.js:299-303 | after a start a timer is always installed, within [9000, 30000]. It is exactly 9000 unless the started poll fails, and then it is the backoff for the raised count. `tries` is kept when nothing is requested, raised by one on failure and reset to 0 on success |
| `GamesPoller.GameWrites` | script.js:283-288 | every write a successful response makes carries a number (a missing count reads as 0), and a response writes nothing exactly when no entry has a truthy universe id |
| `GamesPoller.GameWritesAvoid` | script.js:283-288 | a universe id that no entry with a truthy id carries is never written, so `playing-0`/`visits-0` survive a response holding a `{universeId: 0}` entry |
| `GamesPoller.GameWritesFromTruthyEntries` | script.js:283-288 | every write goes to the `playing-` or `visits-` placeholder of some entry whose universe id is truthy |
| `GamesPoller.GameWritesOnlyStats` | script.js:283-288 | a games poll never writes an element outside the `playing-` and `visits-` placeholders |
| `GamesPoller.Step` | script.js:299-303 | a timer tick without an installed timer does nothing, a start always leaves a timer installed, and no event changes the page's ids |
| `GamesPoller.Run` | script.js:299-303 | once a start has happened (or a timer was already installed) a timer stays installed for the rest of the session; ticks alone on an idle poller do nothing |
| `GamesPoller.GameWritesLastEntryWins` | script.js:282-289 | after a successful response, the placeholders of a truthy universe id show the last matching entry's `playing ?? 0` and `visits ?? 0` and are marked loaded |
| `GamesPoller.SingleGameScenario` | script.js:283-287 | the entry `{universeId: 1, playing: 5, visits: 100}` against placeholders `playing-1` and `visits-1` requests `["1"]`, shows 5 and 100, marks both loaded and leaves `tries` at 0 |
| `GamesPoller.RunKeepsTimerInRange` | script.js:293-302 | over any sequence of starts and ticks, an installed timer's interval stays within [9000, 30000] |
| `GamesPoller.RunKeepsIds` | script.js:283-287 | polling only writes values, so the page's ids and the next batch stay the same |
| `GamesPoller.RunCountsFailures` | script.js:290-296 | while the page shows game ids, `tries` equals the number of failures since the last success, and after a failure the timer is the backoff for that count |
| `GamesPoller.ConsecutiveFailures` | script.js:293-302 | from an idle poller, a start and `n - 1` ticks that all fail leave `tries == n` and the timer at `max(9000, min(30000, 2000 · 2^n))` |
| `GroupsPoller.RequestUrlInjective` | script.js:314-325 | under one configuration, direct or through the proxy, two different group ids never give the same request URL string |
| `GroupsPoller.PollGroupsOnce` | script.js:308-330 | one request per member-count placeholder, in document order, and the page ends as if every answer carrying a count had been written in turn |
| `GroupsPoller.ErrorsDoNotStopLaterGroups` | script.js:312-329 | a group whose request brought a count shows it and is marked loaded, whatever earlier or later requests did, unless a later request for the same group also brought a count |
| `GroupsPoller.UntouchedPlaceholders` | script.js:319-324 | a placeholder that no successful count resolves to keeps its value and loaded flag, so an undefined `memberCount` writes nothing |
| `GroupsPoller.AllFailedChangesNothing` | script.js:326-328 | when every request fails the page is unchanged |
| `GroupsPoller.SecondOfThreeFails` | script.js:312-329 | with three distinct groups and the second request failing, the first and third get their counts and the second is untouched |
| `Navigation.Lookup` | script.js:96 | getElementById on the navigation elements returns the first element with the id, and nothing for an empty or unknown id |
| `Navigation.Push` | script.js:100 | after pushState the pushed fragment is current, the entries up to the old position are kept, nothing lies ahead, and Back returns to the old position and fragment |
| `Navigation.Activate` | script.js:94-101 | every section loses the active flag except the element the target names, which gains it. Non-section elements keep their flags otherwise. A link is active exactly when its href is `#target`. `#target` is pushed |
| `Navigation.ActivateLeavesOneSection` | script.js:95-97 | after an activation exactly the target's section is active when the target names a section, and no section is active otherwise |
| `Navigation.ClickLink` | script.js:103-108 | after a sidebar click the section its href names (without `#`) is the only active one, or none is; exactly the links with that href are active, so a `#x` link is active itself and current in the address bar; Back returns to the previous fragment |
| `Navigation.ClickViewAnimations` | script.js:110-113 | with the button, a click makes the `animations` section the only active one (none when it is missing), activates the links to `#animations`, and makes `#animations` current with Back returning to the previous fragment; without the button nothing happens |
| `Navigation.Follow` | script.js:115-116 | at start-up a fragment that is non-empty and names an element becomes the current section and is pushed once more; otherwise nothing changes |
| `Navigation.TraverseCorrected` | script.js:117-120 | back/forward moves the history position without rewriting the entries; a fragment naming an element becomes the current section, any other fragment leaves every flag alone, and at either end nothing changes |
| `Navigation.TraverseAsWritten` | script.js:117-120 | with the handler as written, arriving at a fragment that names an element makes it the current section and pushes it again, so every entry after the one arrived at is dropped; other fragments only move the position |
| `Navigation.TraverseRoundTrip` | script.js:117-120 | the browser's back/forward that fires `popstate` moves the position by `delta` without touching the entries; Back undoes Forward and Forward undoes Back wherever either is possible |
| `Navigation.BackIsStuckAsWritten` | script.js:117-120 | with the handler as written, Back from `#b` to `#a` pushes `#a` again. A second Back stays on `#a` and Forward is impossible |
| `Navigation.BackThenForwardRestores` | script.js:117-120 | with the corrected handler, Back then Forward restores the history exactly |
| `Navigation.BackReachesStart` | script.js:117-120 | with the corrected handler, pressing Back as many times as the position reaches the first entry with the entries unchanged |
| `Navigation.Step` | script.js:94-120 | no click or traversal adds, removes or renames an element or link |
| `Navigation.StepAsWritten` | script.js:94-120 | with the `popstate` handler as written, too, no event adds, removes or renames an element or link |
| `Navigation.StepKeepsAtMostOneSection` | script.js:94-120 | if at most one section is active before an event, at most one is after it, with the `popstate` handler as written and with the corrected one |
| `Rotation.Next` | script.js:381 | the next index stays in range and wraps from the last image to the first |
| `Rotation.AfterIsModular` | script.js:379-383 | after `n` ticks from `i` the index is `(i + n) mod 3` |
| `Rotation.RotationIsPeriodic` | script.js:372-383 | the rotation repeats every three ticks and shows every image in turn from the start |
| `Wiring.PlayingIdsOfCards` | script.js:187-190 | cards carrying `playing-<x>` and `visits-<x>` placeholders yield exactly the `x`s, in order, to the `playing-` query |
| `Wiring.MemberIdsOfCards` | script.js:226-228 | cards carrying `memberCount-<x>` placeholders yield exactly the `x`s, in order, to the `memberCount-` query |
| `Wiring.NoStatsNoElements` | script.js:187-193 | cards without stats put no placeholder on the page |
| `Wiring.CreatedStatTakesUpdate` | script.js:153-166 | a placeholder fresh from `createStat` shows 0 and is not loaded; an `updateStatElement` for its id then shows the value and marks it loaded |
| `Wiring.GamesPollerSeesRenderedCards` | script.js:187-193 | after the games container renders, the poller's ids are the cards' universe ids (`0` when missing), in card order. A non-empty list always leads to a request. Cards in any other container carry no stats |
| `Wiring.GroupsPollerSeesRenderedCards` | script.js:226-228 | after the groups container renders, the groups poller makes one request per card, in card order, for `groupId or 0`; with no groups, none |

## Left out

- **Network and JSON.** `fetch`, `res.ok`, `res.json()` and the games API URL are left out. Each request's
  result is an input. Any fetch, status or parse error, including a non-array `data`, is one `Failure`.
- **Realtime document store.** Firebase initialisation and the four snapshot listeners are a foreign SDK. The
  projects and my-projects snapshots re-render their container and restart the games poller (script.js:341-342,
  354-355), the worked snapshot re-renders the groups and runs the groups poller once (script.js:361-362), and
  the animations snapshot only re-renders (script.js:348). That composition is not modelled.
- **Real timers and interleaving.** `setInterval`, `setTimeout` and wall-clock time are left out. Timers are an
  `Option` interval and ticks are events. Overlapping in-flight polls are not modelled. Each poll's answer is
  handled before the next event.
- **Lazy image loading.** `enableLazyLoading` depends on `IntersectionObserver` and viewport geometry. Cards
  only record the deferred source.
- **Image error handling.** Every card image gets an inline `onerror` that swaps in the default image
  (script.js:199, 233, 258); image loading and its errors are left out, so cards only record the deferred
  source. `handleImageError` is never attached to any image and is left out too.
- **Locale formatting.** `formatNumber` and `toLocaleString` are left out. A stat shows the raw number.
- **Browser effects.** `scrollIntoView`, CSS class strings other than the active and loaded flags, link
  `target`, the current-year stamp, the loader and container display toggles, and the initialisation error
  panel are left out.
- **Fallback fixtures.** The fallback fixtures and `initializePortfolio`'s call order are left out. The model
  proves properties for every record list instead.
- **A `null` member count.** An undefined `memberCount` writes nothing. A `null` one, which the script would
  write as empty text, is not distinguished from an undefined one.
- **Numeric universe ids.** Game response ids are modelled as natural numbers, and 0 is falsy. Record ids are
  strings, so the element ids match only when the record's id is the number's plain decimal form.
- GamesPoller.GameEntry: a negative or fractional `universeId` is truthy and would write to ids such as
  `playing--5` or `playing-1.5`; the model admits only natural numbers. From 10^21 on, JavaScript renders a
  number as `1e+21`, which `JsText.Decimal` does not reproduce.
- GamesPoller.PollOnce: a `data` array holding `null` or `undefined` after a valid entry throws at
  `game.universeId` (script.js:284) after the earlier entries were written; the catch then raises `tries` and
  replaces the timer with the page partly updated. A `Failure` in the model writes nothing, so this mixed
  outcome is not modelled.
- Navigation.Push: `history.pushState` (script.js:100) percent-encodes the fragment, and `location.hash` returns
  it encoded. So in the browser, a section id with a space, `"`, `<`, `>`, a backtick or a non-ASCII letter
  never matches `getElementById` at start-up or on popstate (script.js:115-120). The model stores and compares
  the raw fragment, so for such ids it restores a section the browser would not.
- **Link elements.** A sidebar link without an `href` is not modelled; it would throw on click. The view
  animations button is only a presence flag.

## Findings

| source | as written | input that shows it | evidently intended | confidence | as-written member | corrected member |
|---|---|---|---|---|---|---|
| script.js:117-120 | the popstate handler calls `activateSection`, which pushes the fragment it just arrived at, so forward entries are discarded and Back re-pushes the entry it lands on | history `["", "#a", "#b"]` at `#b` with sections `a`, `b`: Back lands on `#a` and pushes it (`["", "#a", "#a"]`), Back again lands on the duplicate, and the first entry is never reached; Forward is impossible | back/forward only re-derive the active section from the fragment and leave the history alone | medium, not executed | `Navigation.BackIsStuckAsWritten` | `Navigation.TraverseCorrected` |

=== FILE: dom.dfy ===
/**
 * The part of the page the stats pollers read and write: the elements that
 * carry an id, in document order, each with the number it displays and
 * whether it has been marked `loaded`.
 */
module Dom {
  import opened Wrappers
  import opened JsText

  /** Id prefixes of the stat placeholders the cards carry and the pollers look up. */
  const PlayingPrefix := "playing-"
  const VisitsPrefix := "visits-"
  const MemberCountPrefix := "memberCount-"

  datatype Element = Element(id: string, value: int, loaded: bool)

  type Document = seq<Element>

  /** A pending `updateStatElement(id, value)`; an absent value means the call is not made. */
  datatype Write = Write(id: string, value: Option<int>)

  function IdList(doc: Document): (ids: seq<string>)
    ensures |ids| == |doc| && forall j :: 0 <= j < |doc| ==> ids[j] == doc[j].id
  {
    seq(|doc|, j requires 0 <= j < |doc| => doc[j].id)
  }

  /** `document.getElementById(id)`: the first element in document order with that id. */
  function Find(doc: Document, id: string): (r: Option<nat>)
    ensures r.Some? ==> r.value < |doc| && doc[r.value].id == id && id != ""
    ensures r.Some? ==> forall j :: 0 <= j < r.value ==> doc[j].id != id
    ensures r.None? ==> id == "" || forall j :: 0 <= j < |doc| ==> doc[j].id != id
  {
    FirstIndex(IdList(doc), id)
  }

  predicate SameIds(a: Document, b: Document) {
    |a| == |b| && forall j :: 0 <= j < |a| ==> a[j].id == b[j].id
  }

  /** getElementById only looks at ids, so documents with the same ids resolve every id alike. */
  lemma FindSameIds(a: Document, b: Document, id: string)
    requires SameIds(a, b)
    ensures Find(a, id) == Find(b, id)
  {
    assert IdList(a) == IdList(b);
  }

  /**
   * `updateStatElement(id, value)`: when some element has the id, the first
   * one shows `value` and is marked loaded; nothing else changes.
   */
  function UpdateStat(doc: Document, id: string, value: int): (r: Document)
    ensures SameIds(r, doc)
    ensures Find(doc, id).None? ==> r == doc
    ensures Find(doc, id).Some? ==>
      var k := Find(doc, id).value;
      && r[k].value == value && r[k].loaded
      && forall j :: 0 <= j < |doc| && j != k ==> r[j] == doc[j]
  {
    match Find(doc, id)
    case None => doc
    case Some(k) => doc[k := doc[k].(value := value, loaded := true)]
  }

  function ApplyWrite(doc: Document, w: Write): Document {
    if w.value.Some? then UpdateStat(doc, w.id, w.value.value) else doc
  }

  /** The writes performed one after the other, in order. */
  function ApplyWrites(doc: Document, ws: seq<Write>): (r: Document)
    ensures SameIds(r, doc)
    decreases |ws|
  {
    if |ws| == 0 then doc else ApplyWrites(ApplyWrite(doc, ws[0]), ws[1..])
  }

  lemma {:induction false} ApplyWritesConcat(doc: Document, a: seq<Write>, b: seq<Write>)
    ensures ApplyWrites(doc, a + b) == ApplyWrites(ApplyWrites(doc, a), b)
    decreases |a|
  {
    if |a| == 0 {
      assert a + b == b;
    } else {
      assert (a + b)[0] == a[0];
      assert (a + b)[1..] == a[1..] + b;
      ApplyWritesConcat(ApplyWrite(doc, a[0]), a[1..], b);
    }
  }

  /** A write is effective on element `j` when it carries a value and `j` is the element its id resolves to. */
  predicate Hits(doc: Document, w: Write, j: nat) {
    w.value.Some? && Find(doc, w.id) == Some(j)
  }

  /** An element that no effective write resolves to is left exactly as it was. */
  lemma {:induction false} ApplyWritesFrame(doc: Document, ws: seq<Write>, j: nat)
    requires j < |doc|
    requires forall m :: 0 <= m < |ws| ==> !Hits(doc, ws[m], j)
    ensures ApplyWrites(doc, ws)[j] == doc[j]
    decreases |ws|
  {
    if |ws| > 0 {
      var doc1 := ApplyWrite(doc, ws[0]);
      assert !Hits(doc, ws[0], j);
      assert doc1[j] == doc[j];
      forall m | 0 <= m < |ws[1..]|
        ensures !Hits(doc1, ws[1..][m], j)
      {
        FindSameIds(doc1, doc, ws[1..][m].id);
        assert ws[1..][m] == ws[m + 1];
      }
      ApplyWritesFrame(doc1, ws[1..], j);
    }
  }

  /**
   * The last write carrying a value for an id decides what the element with
   * that id shows: whatever failed or was skipped before or after it.
   */
  lemma {:induction false} ApplyWritesLastWins(doc: Document, ws: seq<Write>, k: nat)
    requires k < |ws| && ws[k].value.Some?
    requires forall m :: k < m < |ws| && ws[m].id == ws[k].id ==> ws[m].value.None?
    requires Find(doc, ws[k].id).Some?
    ensures var j := Find(doc, ws[k].id).value;
      ApplyWrites(doc, ws)[j].value == ws[k].value.value && ApplyWrites(doc, ws)[j].loaded
    decreases |ws|
  {
    var j := Find(doc, ws[k].id).value;
    var doc1 := ApplyWrite(doc, ws[0]);
    FindSameIds(doc1, doc, ws[k].id);
    if k == 0 {
      assert doc1[j].value == ws[0].value.value && doc1[j].loaded;
      forall m | 0 <= m < |ws[1..]|
        ensures !Hits(doc1, ws[1..][m], j)
      {
        assert ws[1..][m] == ws[m + 1];
        FindSameIds(doc1, doc, ws[m + 1].id);
      }
      ApplyWritesFrame(doc1, ws[1..], j);
    } else {
      assert ws[1..][k - 1] == ws[k];
      ApplyWritesLastWins(doc1, ws[1..], k - 1);
    }
  }

  /**
   * `querySelectorAll('[id^="<prefix>"]').map(el => el.id.replace(prefix, ''))`:
   * the ids that start with `prefix`, prefix removed, in document order.
   */
  function IdsWithPrefix(doc: Document, prefix: string): (r: seq<string>)
    ensures |r| <= |doc|
    decreases |doc|
  {
    if |doc| == 0 then []
    else
      var rest := IdsWithPrefix(doc[..|doc| - 1], prefix);
      var last := doc[|doc| - 1].id;
      if StartsWith(last, prefix) then rest + [StripPrefix(last, prefix)] else rest
  }

  /**
   * The prefix query yields exactly the ids whose prefixed form is the id of
   * some element of the page.
   */
  lemma {:induction false} IdsWithPrefixFromPage(doc: Document, prefix: string)
    ensures forall x :: x in IdsWithPrefix(doc, prefix) <==> prefix + x in IdsOf(doc)
    decreases |doc|
  {
    if |doc| > 0 {
      var init, last := doc[..|doc| - 1], doc[|doc| - 1].id;
      IdsWithPrefixFromPage(init, prefix);
      assert IdsOf(doc) == IdsOf(init) + {last} by {
        assert forall j :: 0 <= j < |init| ==> init[j] == doc[j];
      }
      forall x | prefix + x == last
        ensures x in IdsWithPrefix(doc, prefix)
      {
        StripPrefixOfConcat(prefix, x);
      }
    }
  }

  function IdsOf(doc: Document): set<string> {
    set j | 0 <= j < |doc| :: doc[j].id
  }

  /** Only ids matter to the id query, so writes never change what a later poll collects. */
  lemma {:induction false} IdsWithPrefixSameIds(a: Document, b: Document, prefix: string)
    requires SameIds(a, b)
    ensures IdsWithPrefix(a, prefix) == IdsWithPrefix(b, prefix)
    decreases |a|
  {
    if |a| > 0 {
      IdsWithPrefixSameIds(a[..|a| - 1], b[..|b| - 1], prefix);
    }
  }

  lemma {:induction false} IdsWithPrefixConcat(a: Document, b: Document, prefix: string)
    ensures IdsWithPrefix(a + b, prefix) == IdsWithPrefix(a, prefix) + IdsWithPrefix(b, prefix)
    decreases |b|
  {
    if |b| == 0 {
      assert a + b == a;
    } else {
      var b' := b[..|b| - 1];
      assert (a + b)[..|a + b| - 1] == a + b';
      IdsWithPrefixConcat(a, b', prefix);
    }
  }
}

=== FILE: games_poller.dfy ===
/**
 * The games stats poller (`fetchAllGameStatsOnce`, `startStatsPolling`):
 * collects the universe ids shown on the page, asks for their stats in one
 * batch, writes the answers into the placeholders, and backs off on failure.
 * The request itself is an input: the outcome of one fetch.
 */
module GamesPoller {
  import opened Wrappers
  import opened JsText
  import opened Dom

  const BaseInterval: nat := 9000
  const MaxWait: nat := 30000
  const BackoffUnit: nat := 2000
  const MaxBatch: nat := 50

  /** The poller's state: consecutive failures and the one recurring timer (its interval), if installed. */
  datatype Poller = Poller(tries: nat, timer: Option<nat>)

  const Idle := Poller(0, None)

  /** One element of the response's `data` array; every member may be missing. */
  datatype GameEntry = GameEntry(universeId: Option<nat>, playing: Option<int>, visits: Option<int>)

  /** How one request ended: a parsed body whose `data` may be missing, or any fetch or parse error. */
  datatype Fetch = Success(data: Option<seq<GameEntry>>) | Failure

  /** The state after one poll, the page after it, and the ids requested (none when no request was made). */
  datatype PollResult = PollResult(poller: Poller, doc: Document, request: Option<seq<string>>)

  // ---------------------------------------------------------------- backoff

  function Pow2(n: nat): (r: nat)
    ensures r >= 1
  {
    if n == 0 then 1 else 2 * Pow2(n - 1)
  }

  function Min(a: int, b: int): int { if a <= b then a else b }
  function Max(a: int, b: int): int { if a >= b then a else b }

  /** The interval installed after the `tries`-th consecutive failure. */
  function BackoffInterval(tries: nat): (r: nat)
    ensures BaseInterval <= r <= MaxWait
    ensures r == BaseInterval || r == MaxWait || r == BackoffUnit * Pow2(tries)
  {
    Max(BaseInterval, Min(MaxWait, BackoffUnit * Pow2(tries)))
  }

  lemma {:induction false} Pow2Monotone(a: nat, b: nat)
    requires a <= b
    ensures Pow2(a) <= Pow2(b)
    decreases b - a
  {
    if a < b {
      Pow2Monotone(a, b - 1);
    }
  }

  /** More failures never shorten the wait. */
  lemma BackoffMonotone(a: nat, b: nat)
    requires a <= b
    ensures BackoffInterval(a) <= BackoffInterval(b)
  {
    Pow2Monotone(a, b);
  }

  /** From the fourth consecutive failure on the wait is capped at 30 seconds. */
  lemma BackoffSaturates(tries: nat)
    requires tries >= 4
    ensures BackoffInterval(tries) == MaxWait
  {
    Pow2Monotone(4, tries);
    assert Pow2(4) == 16;
  }

  // ---------------------------------------------------------------- id batching

  /** `.filter(Boolean)` on strings: drops the empty ones, keeping order. */
  function NonEmpty(s: seq<string>): (r: seq<string>)
    ensures forall x :: x in r <==> x in s && x != ""
    decreases |s|
  {
    if |s| == 0 then []
    else
      var rest := NonEmpty(s[..|s| - 1]);
      assert forall x :: x in s <==> x in s[..|s| - 1] || x == s[|s| - 1];
      if s[|s| - 1] == "" then rest else rest + [s[|s| - 1]]
  }

  /** The filter works element by element, so it keeps the order of what it keeps. */
  lemma {:induction false} NonEmptyConcat(a: seq<string>, b: seq<string>)
    ensures NonEmpty(a + b) == NonEmpty(a) + NonEmpty(b)
    decreases |b|
  {
    if |b| == 0 {
      assert a + b == a;
    } else {
      var b' := b[..|b| - 1];
      assert (a + b)[..|a + b| - 1] == a + b';
      NonEmptyConcat(a, b');
    }
  }

  /** Nothing is dropped from a list without empty strings. */
  lemma {:induction false} NonEmptyKeepsAll(xs: seq<string>)
    requires forall x :: x in xs ==> x != ""
    ensures NonEmpty(xs) == xs
    decreases |xs|
  {
    if |xs| > 0 {
      var init := xs[..|xs| - 1];
      assert forall x :: x in init ==> x in xs;
      NonEmptyKeepsAll(init);
      assert xs[|xs| - 1] in xs;
      assert init + [xs[|xs| - 1]] == xs;
    }
  }

  /** `Array.from(new Set(s))`: each value once, in order of first occurrence. */
  function Dedup(s: seq<string>): (r: seq<string>)
    ensures Distinct(r)
    ensures forall x :: x in r <==> x in s
    ensures |r| == 0 <==> |s| == 0
    decreases |s|
  {
    if |s| == 0 then []
    else
      var d := Dedup(s[..|s| - 1]);
      assert forall x :: x in s <==> x in s[..|s| - 1] || x == s[|s| - 1];
      if s[|s| - 1] in d then d else d + [s[|s| - 1]]
  }

  /** The position of the first occurrence of `x`. */
  function IndexOf(s: seq<string>, x: string): (k: nat)
    requires x in s
    ensures k < |s| && s[k] == x
    ensures forall j :: 0 <= j < k ==> s[j] != x
  {
    if s[0] == x then 0 else 1 + IndexOf(s[1..], x)
  }

  lemma IndexOfPrefix(s: seq<string>, n: nat, x: string)
    requires n <= |s| && x in s[..n]
    ensures IndexOf(s, x) == IndexOf(s[..n], x)
  {
    var a, b := IndexOf(s, x), IndexOf(s[..n], x);
    assert s[b] == x;
  }

  /** Dedup lists the values in the order in which they first occur. */
  lemma {:induction false} DedupFirstOccurrenceOrder(s: seq<string>)
    ensures forall i, j :: 0 <= i < j < |Dedup(s)| ==> IndexOf(s, Dedup(s)[i]) < IndexOf(s, Dedup(s)[j])
    decreases |s|
  {
    if |s| > 0 {
      var init := s[..|s| - 1];
      var d := Dedup(init);
      DedupFirstOccurrenceOrder(init);
      var r := Dedup(s);
      forall i, j | 0 <= i < j < |r|
        ensures IndexOf(s, r[i]) < IndexOf(s, r[j])
      {
        assert forall k :: 0 <= k < |init| ==> s[k] == init[k];
        if j < |d| {
          assert r[i] == d[i] && r[j] == d[j];
          IndexOfPrefix(s, |s| - 1, r[i]);
          IndexOfPrefix(s, |s| - 1, r[j]);
        } else {
          assert r[i] == d[i] && r[i] in init;
          IndexOfPrefix(s, |s| - 1, r[i]);
          assert IndexOf(s, r[i]) < |init|;
          assert r[j] == s[|s| - 1] && r[j] !in init;
          assert IndexOf(s, r[j]) >= |init|;
        }
      }
    }
  }

  /** `.slice(0, n)`. */
  function Take(s: seq<string>, n: nat): (r: seq<string>)
    ensures |r| == Min(|s|, n)
    ensures r == s[..|r|]
  {
    if |s| <= n then s else s[..n]
  }

  /** The non-empty universe ids of the `playing-` placeholders, in document order. */
  function PlayingIds(doc: Document): seq<string> {
    NonEmpty(IdsWithPrefix(doc, PlayingPrefix))
  }

  /** The ids one poll requests: distinct, first-occurrence order, at most fifty. */
  function Batch(doc: Document): (r: seq<string>)
    ensures |r| <= MaxBatch
    ensures Distinct(r)
    ensures forall x :: x in r ==> x != "" && PlayingPrefix + x in IdsOf(doc)
    ensures |r| == 0 <==> |PlayingIds(doc)| == 0
    ensures |Dedup(PlayingIds(doc))| <= MaxBatch ==> forall x :: x in PlayingIds(doc) ==> x in r
  {
    var d := Dedup(PlayingIds(doc));
    IdsWithPrefixFromPage(doc, PlayingPrefix);
    assert forall x :: x in PlayingIds(doc) ==> x in IdsWithPrefix(doc, PlayingPrefix);
    assert forall x :: x in Take(d, MaxBatch) ==> x in d;
    assert forall i, j :: 0 <= i < j < |Take(d, MaxBatch)| ==> Take(d, MaxBatch)[i] == d[i] && Take(d, MaxBatch)[j] == d[j];
    Take(d, MaxBatch)
  }

  /**
   * The batch is the first fifty distinct ids in document order: they come
   * in the order of their first occurrence, and any id left out occurs
   * first after every id that was kept.
   */
  lemma BatchIsFirstFifty(doc: Document)
    ensures |Batch(doc)| == Min(|Dedup(PlayingIds(doc))|, MaxBatch)
    ensures Batch(doc) == Dedup(PlayingIds(doc))[..|Batch(doc)|]
    ensures forall i, j :: 0 <= i < j < |Batch(doc)| ==>
      IndexOf(PlayingIds(doc), Batch(doc)[i]) < IndexOf(PlayingIds(doc), Batch(doc)[j])
    ensures forall x :: x in PlayingIds(doc) && x !in Batch(doc) ==>
      && |Batch(doc)| == MaxBatch
      && forall i :: 0 <= i < |Batch(doc)| ==> IndexOf(PlayingIds(doc), Batch(doc)[i]) < IndexOf(PlayingIds(doc), x)
  {
    var s, r := PlayingIds(doc), Batch(doc);
    var d := Dedup(s);
    DedupFirstOccurrenceOrder(s);
    assert forall i :: 0 <= i < |r| ==> r[i] == d[i];
    forall x | x in s && x !in r
      ensures |r| == MaxBatch && forall i :: 0 <= i < |r| ==> IndexOf(s, r[i]) < IndexOf(s, x)
    {
      assert x in d;
      var k :| 0 <= k < |d| && d[k] == x;
      assert k >= |r|;
    }
  }

  lemma BatchSameIds(a: Document, b: Document)
    requires SameIds(a, b)
    ensures Batch(a) == Batch(b)
  {
    IdsWithPrefixSameIds(a, b, PlayingPrefix);
  }

  /** One more element of the page adds at most its own non-empty id to the filtered query. */
  lemma PlayingIdsStep(doc: Document, i: nat)
    requires i < |doc|
    ensures var id := doc[i].id;
      NonEmpty(IdsWithPrefix(doc[..i + 1], PlayingPrefix))
        == NonEmpty(IdsWithPrefix(doc[..i], PlayingPrefix))
           + (if StartsWith(id, PlayingPrefix) && StripPrefix(id, PlayingPrefix) != "" then [StripPrefix(id, PlayingPrefix)] else [])
  {
    var ids := IdsWithPrefix(doc[..i], PlayingPrefix);
    assert doc[..i + 1][..i] == doc[..i];
    var id := doc[i].id;
    if StartsWith(id, PlayingPrefix) {
      var stripped := StripPrefix(id, PlayingPrefix);
      assert IdsWithPrefix(doc[..i + 1], PlayingPrefix) == ids + [stripped];
      NonEmptyConcat(ids, [stripped]);
      assert [stripped][..0] == [];
    } else {
      assert IdsWithPrefix(doc[..i + 1], PlayingPrefix) == ids;
    }
  }

  /** The Set keeps a value the first time it appears and ignores it afterwards. */
  lemma DedupSnoc(s: seq<string>, x: string)
    ensures Dedup(s + [x]) == if x in Dedup(s) then Dedup(s) else Dedup(s) + [x]
  {
    assert (s + [x])[..|s|] == s;
  }

  /** One pass over the page, as the browser's id query and the Set do it. */
  method CollectBatch(doc: Document) returns (batch: seq<string>)
    ensures batch == Batch(doc)
  {
    var unique: seq<string> := [];
    var seen: set<string> := {};
    var i := 0;
    while i < |doc|
      invariant 0 <= i <= |doc|
      invariant unique == Dedup(NonEmpty(IdsWithPrefix(doc[..i], PlayingPrefix)))
      invariant forall x :: x in seen <==> x in unique
    {
      var before := NonEmpty(IdsWithPrefix(doc[..i], PlayingPrefix));
      var after := NonEmpty(IdsWithPrefix(doc[..i + 1], PlayingPrefix));
      PlayingIdsStep(doc, i);
      var id := doc[i].id;
      if StartsWith(id, PlayingPrefix) && StripPrefix(id, PlayingPrefix) != "" {
        var stripped := StripPrefix(id, PlayingPrefix);
        assert after == before + [stripped];
        DedupSnoc(before, stripped);
        if stripped !in seen {
          unique := unique + [stripped];
          seen := seen + {stripped};
        }
      } else {
        assert after == before;
      }
      i := i + 1;
    }
    assert doc[..i] == doc;
    batch := Take(unique, MaxBatch);
  }

  // ---------------------------------------------------------------- one poll

  function PlayingId(u: nat): string { PlayingPrefix + Decimal(u) }
  function VisitsId(u: nat): string { VisitsPrefix + Decimal(u) }

  /** A response entry is applied only when its universe id is truthy (present and non-zero). */
  predicate Applies(e: GameEntry) {
    e.universeId.Some? && e.universeId.value != 0
  }

  /** The two `updateStatElement` calls one response entry makes, missing counts read as zero. */
  function EntryWrites(e: GameEntry): seq<Write> {
    if Applies(e) then
      [Write(PlayingId(e.universeId.value), Some(e.playing.GetOr(0))),
       Write(VisitsId(e.universeId.value), Some(e.visits.GetOr(0)))]
    else []
  }

  /**
   * The writes a successful response makes, entry by entry: every one
   * carries a number (a missing count reads as zero), and entries whose
   * universe id is falsy contribute nothing.
   */
  function GameWrites(data: seq<GameEntry>): (ws: seq<Write>)
    ensures forall w :: w in ws ==> w.value.Some?
    ensures (forall m :: 0 <= m < |data| ==> !Applies(data[m])) <==> ws == []
    decreases |data|
  {
    if |data| == 0 then [] else EntryWrites(data[0]) + GameWrites(data[1..])
  }

  /**
   * `fetchAllGameStatsOnce`: no request and no change when the page shows no
   * game id; otherwise one batched request, then either the stats written and
   * the failure count cleared (the timer kept as it is), or the failure count
   * raised and the timer replaced by one at the backoff interval.
   */
  function PollOnce(p: Poller, doc: Document, fetch: Fetch): (r: PollResult)
    ensures Batch(doc) == [] ==> r == PollResult(p, doc, None)
    ensures Batch(doc) != [] ==> r.request == Some(Batch(doc)) && 1 <= |Batch(doc)| <= MaxBatch
    ensures Batch(doc) != [] && fetch.Failure? ==>
      r.poller == Poller(p.tries + 1, Some(BackoffInterval(p.tries + 1))) && r.doc == doc
    ensures Batch(doc) != [] && fetch.Success? ==> r.poller == Poller(0, p.timer)
    ensures Batch(doc) != [] && fetch.Success? ==> r.doc == ApplyWrites(doc, GameWrites(fetch.data.GetOr([])))
    ensures fetch == Success(None) ==> r.doc == doc
    ensures SameIds(r.doc, doc)
  {
    var batch := Batch(doc);
    if batch == [] then PollResult(p, doc, None)
    else match fetch
      case Failure =>
        var tries := p.tries + 1;
        PollResult(Poller(tries, Some(BackoffInterval(tries))), doc, Some(batch))
      case Success(data) =>
        PollResult(Poller(0, p.timer), ApplyWrites(doc, GameWrites(data.GetOr([]))), Some(batch))
  }

  /**
   * `startStatsPolling`: the recurring timer is replaced by one at the base
   * interval before the response of the poll it starts is handled, so only
   * a failing response leaves a longer one. The failure count is not reset.
   */
  function StartPolling(p: Poller, doc: Document, fetch: Fetch): (r: PollResult)
    ensures r.poller.timer.Some? && BaseInterval <= r.poller.timer.value <= MaxWait
    ensures Batch(doc) == [] || fetch.Success? ==> r.poller.timer == Some(BaseInterval)
    ensures Batch(doc) == [] ==> r.poller.tries == p.tries && r.doc == doc
    ensures Batch(doc) != [] && fetch.Failure? ==>
      r.poller.tries == p.tries + 1 && r.poller.timer == Some(BackoffInterval(p.tries + 1))
    ensures Batch(doc) != [] && fetch.Success? ==> r.poller.tries == 0
  {
    PollOnce(Poller(p.tries, Some(BaseInterval)), doc, fetch)
  }

  // ---------------------------------------------------------------- what a success writes

  /** The ids an entry list can write to. */
  lemma {:induction false} GameWritesAvoid(data: seq<GameEntry>, u: nat)
    requires forall m :: 0 <= m < |data| && Applies(data[m]) ==> data[m].universeId != Some(u)
    ensures forall w :: w in GameWrites(data) ==> w.id != PlayingId(u) && w.id != VisitsId(u)
    decreases |data|
  {
    if |data| > 0 {
      GameWritesAvoid(data[1..], u);
      var e := data[0];
      if Applies(e) {
        var v := e.universeId.value;
        assert v != u;
        if Decimal(v) == Decimal(u) { DecimalInjective(v, u); }
        if PlayingId(v) == PlayingId(u) { ConcatCancel(PlayingPrefix, Decimal(v), Decimal(u)); }
        if VisitsId(v) == VisitsId(u) { ConcatCancel(VisitsPrefix, Decimal(v), Decimal(u)); }
        DistinctHeads(PlayingPrefix, VisitsPrefix, Decimal(v), Decimal(u));
        DistinctHeads(PlayingPrefix, VisitsPrefix, Decimal(u), Decimal(v));
      }
    }
  }

  /**
   * Every write of a response goes to the `playing-` or `visits-`
   * placeholder of an entry whose universe id is truthy; entries with a
   * falsy id write nothing.
   */
  lemma {:induction false} GameWritesFromTruthyEntries(data: seq<GameEntry>)
    ensures forall w :: w in GameWrites(data) ==>
      exists m :: 0 <= m < |data| && Applies(data[m]) &&
        (w.id == PlayingId(data[m].universeId.value) || w.id == VisitsId(data[m].universeId.value))
    decreases |data|
  {
    if |data| > 0 {
      GameWritesFromTruthyEntries(data[1..]);
      forall w | w in GameWrites(data)
        ensures exists m :: (0 <= m < |data| && Applies(data[m]) &&
          (w.id == PlayingId(data[m].universeId.value) || w.id == VisitsId(data[m].universeId.value)))
      {
        if w in EntryWrites(data[0]) {
          assert Applies(data[0]);
        } else {
          assert w in GameWrites(data[1..]);
          var m :| 0 <= m < |data[1..]| && Applies(data[1..][m]) &&
            (w.id == PlayingId(data[1..][m].universeId.value) || w.id == VisitsId(data[1..][m].universeId.value));
          assert data[1..][m] == data[m + 1];
        }
      }
    }
  }

  /** A games poll never writes outside the `playing-` and `visits-` placeholders. */
  lemma GameWritesOnlyStats(data: seq<GameEntry>)
    ensures forall w :: w in GameWrites(data) ==> StartsWith(w.id, PlayingPrefix) || StartsWith(w.id, VisitsPrefix)
  {
    GameWritesFromTruthyEntries(data);
    forall w | w in GameWrites(data)
      ensures StartsWith(w.id, PlayingPrefix) || StartsWith(w.id, VisitsPrefix)
    {
      var m :| 0 <= m < |data| && Applies(data[m]) &&
        (w.id == PlayingId(data[m].universeId.value) || w.id == VisitsId(data[m].universeId.value));
      StripPrefixOfConcat(PlayingPrefix, Decimal(data[m].universeId.value));
      StripPrefixOfConcat(VisitsPrefix, Decimal(data[m].universeId.value));
    }
  }

  /** Writes that avoid an element's id leave that element alone. */
  lemma WritesAvoidingElement(doc: Document, ws: seq<Write>, j: nat)
    requires j < |doc|
    requires forall w :: w in ws ==> w.id != doc[j].id
    ensures ApplyWrites(doc, ws)[j] == doc[j]
  {
    forall m | 0 <= m < |ws|
      ensures !Hits(doc, ws[m], j)
    {
      assert ws[m] in ws;
    }
    ApplyWritesFrame(doc, ws, j);
  }

  /**
   * `r` shows entry `e` relative to `doc`: the elements of `doc` that the
   * entry's ids resolve to show its counts and are marked loaded.
   */
  predicate ShowsEntry(doc: Document, r: Document, e: GameEntry)
    requires Applies(e) && SameIds(r, doc)
  {
    var u := e.universeId.value;
    && (Find(doc, PlayingId(u)).Some? ==>
          r[Find(doc, PlayingId(u)).value].value == e.playing.GetOr(0) && r[Find(doc, PlayingId(u)).value].loaded)
    && (Find(doc, VisitsId(u)).Some? ==>
          r[Find(doc, VisitsId(u)).value].value == e.visits.GetOr(0) && r[Find(doc, VisitsId(u)).value].loaded)
  }

  lemma EntryWritesShow(doc: Document, e: GameEntry)
    requires Applies(e)
    ensures ShowsEntry(doc, ApplyWrites(doc, EntryWrites(e)), e)
  {
    var u := e.universeId.value;
    var ws := EntryWrites(e);
    DistinctHeads(PlayingPrefix, VisitsPrefix, Decimal(u), Decimal(u));
    var d0 := UpdateStat(doc, PlayingId(u), e.playing.GetOr(0));
    var d1 := UpdateStat(d0, VisitsId(u), e.visits.GetOr(0));
    assert ApplyWrite(doc, ws[0]) == d0;
    assert ApplyWrite(d0, ws[1..][0]) == d1;
    assert ApplyWrites(d1, ws[1..][1..]) == d1 by {
      assert ws[1..][1..] == [];
    }
    assert ApplyWrites(doc, ws) == d1;
    FindSameIds(d0, doc, PlayingId(u));
    FindSameIds(d0, doc, VisitsId(u));
  }

  lemma ShowsEntryKept(doc: Document, r: Document, ws: seq<Write>, e: GameEntry)
    requires Applies(e) && SameIds(r, doc) && ShowsEntry(doc, r, e)
    requires forall w :: w in ws ==> w.id != PlayingId(e.universeId.value) && w.id != VisitsId(e.universeId.value)
    ensures ShowsEntry(doc, ApplyWrites(r, ws), e)
  {
    var u := e.universeId.value;
    FindSameIds(r, doc, PlayingId(u));
    FindSameIds(r, doc, VisitsId(u));
    if Find(doc, PlayingId(u)).Some? {
      WritesAvoidingElement(r, ws, Find(doc, PlayingId(u)).value);
    }
    if Find(doc, VisitsId(u)).Some? {
      WritesAvoidingElement(r, ws, Find(doc, VisitsId(u)).value);
    }
  }

  /**
   * After a successful response, the placeholders of a truthy universe id
   * show the last entry's `playing ?? 0` and `visits ?? 0` for that id, and
   * are marked loaded.
   */
  lemma {:induction false} GameWritesLastEntryWins(doc: Document, data: seq<GameEntry>, k: nat)
    requires k < |data| && Applies(data[k])
    requires forall m :: k < m < |data| ==> data[m].universeId != data[k].universeId
    ensures ShowsEntry(doc, ApplyWrites(doc, GameWrites(data)), data[k])
    decreases |data|
  {
    var u := data[k].universeId.value;
    var head := EntryWrites(data[0]);
    var doc1 := ApplyWrites(doc, head);
    ApplyWritesConcat(doc, head, GameWrites(data[1..]));
    if k == 0 {
      forall m | 0 <= m < |data[1..]|
        ensures data[1..][m].universeId != Some(u)
      {
        assert data[1..][m] == data[m + 1];
      }
      GameWritesAvoid(data[1..], u);
      EntryWritesShow(doc, data[0]);
      ShowsEntryKept(doc, doc1, GameWrites(data[1..]), data[0]);
    } else {
      assert data[1..][k - 1] == data[k];
      forall m | k - 1 < m < |data[1..]|
        ensures data[1..][m].universeId != data[1..][k - 1].universeId
      {
        assert data[1..][m] == data[m + 1];
      }
      GameWritesLastEntryWins(doc1, data[1..], k - 1);
      FindSameIds(doc1, doc, PlayingId(u));
      FindSameIds(doc1, doc, VisitsId(u));
    }
  }

  /**
   * After a poll whose response succeeded, the placeholders of every truthy
   * universe id in the response show the counts of its last entry and are
   * marked loaded.
   */
  lemma PollOnceShowsEntries(p: Poller, doc: Document, data: seq<GameEntry>, k: nat)
    requires Batch(doc) != []
    requires k < |data| && Applies(data[k])
    requires forall m :: k < m < |data| ==> data[m].universeId != data[k].universeId
    ensures var r := PollOnce(p, doc, Success(Some(data)));
      SameIds(r.doc, doc) && ShowsEntry(doc, r.doc, data[k])
  {
    GameWritesLastEntryWins(doc, data, k);
  }

  const ScenarioPage: Document := [Element("playing-1", 0, false), Element("visits-1", 0, false)]

  lemma ScenarioBatch()
    ensures Batch(ScenarioPage) == ["1"]
  {
    var doc := ScenarioPage;
    assert IdsWithPrefix(doc, PlayingPrefix) == ["1"] by {
      assert doc[..1] == [doc[0]];
      assert doc[0].id == PlayingPrefix + "1";
      StripPrefixOfConcat(PlayingPrefix, "1");
      assert IdsWithPrefix(doc[..1], PlayingPrefix) == ["1"];
      assert doc[1].id[..|PlayingPrefix|][0] == 'v';
      assert doc[..2][..1] == doc[..1];
      assert doc[..2] == doc;
    }
    assert PlayingIds(doc) == ["1"] by {
      assert ["1"][..0] == [];
      assert NonEmpty(["1"]) == ["1"];
    }
    assert Dedup(["1"]) == ["1"] by {
      assert ["1"][..0] == [];
    }
  }

  const ScenarioEntry := GameEntry(Some(1), Some(5), Some(100))

  lemma ScenarioWrites()
    ensures GameWrites([ScenarioEntry]) == [Write("playing-1", Some(5)), Write("visits-1", Some(100))]
  {
    assert Decimal(1) == "1";
    assert PlayingId(1) == "playing-1" && VisitsId(1) == "visits-1";
    assert EntryWrites(ScenarioEntry) == [Write("playing-1", Some(5)), Write("visits-1", Some(100))];
    assert [ScenarioEntry][1..] == [];
    assert GameWrites([]) == [];
  }

  lemma ScenarioApplied()
    ensures ApplyWrites(ScenarioPage, [Write("playing-1", Some(5)), Write("visits-1", Some(100))])
         == [Element("playing-1", 5, true), Element("visits-1", 100, true)]
  {
    var ws := [Write("playing-1", Some(5)), Write("visits-1", Some(100))];
    assert Find(ScenarioPage, "playing-1") == Some(0) by {
      assert IdList(ScenarioPage)[0] == "playing-1";
    }
    var d0 := UpdateStat(ScenarioPage, "playing-1", 5);
    assert d0 == [Element("playing-1", 5, true), Element("visits-1", 0, false)];
    assert Find(d0, "visits-1") == Some(1) by {
      assert IdList(d0)[0][0] != "visits-1"[0];
      assert IdList(d0)[0] != "visits-1";
      assert IdList(d0)[1..][0] == "visits-1";
    }
    assert ApplyWrite(ScenarioPage, ws[0]) == d0;
    assert ws[1..][1..] == [];
  }

  /** The worked scenario: `{universeId: 1, playing: 5, visits: 100}` against `playing-1` and `visits-1`. */
  lemma SingleGameScenario()
    ensures var r := PollOnce(Idle, ScenarioPage, Success(Some([ScenarioEntry])));
      && r.request == Some(["1"])
      && r.doc == [Element("playing-1", 5, true), Element("visits-1", 100, true)]
      && r.poller == Idle
  {
    ScenarioBatch();
    ScenarioWrites();
    ScenarioApplied();
  }

  // ---------------------------------------------------------------- a polling session

  /** Something that makes the poller run: `startStatsPolling`, or its timer firing. */
  datatype PollEvent = Start(fetch: Fetch) | Tick(fetch: Fetch)

  datatype Session = Session(poller: Poller, doc: Document)

  /**
   * A tick only happens while a timer is installed; a start always leaves
   * one installed. Either way only values on the page change.
   */
  function Step(s: Session, e: PollEvent): (r: Session)
    ensures e.Tick? && s.poller.timer.None? ==> r == s
    ensures e.Start? ==> r.poller.timer.Some?
    ensures SameIds(r.doc, s.doc)
  {
    match e
    case Start(f) =>
      var r := StartPolling(s.poller, s.doc, f);
      Session(r.poller, r.doc)
    case Tick(f) =>
      if s.poller.timer.None? then s
      else
        var r := PollOnce(s.poller, s.doc, f);
        Session(r.poller, r.doc)
  }

  /** A session: the events in order; after any start the timer stays installed. */
  function Run(s: Session, es: seq<PollEvent>): (r: Session)
    ensures s.poller.timer.Some? || (exists k :: 0 <= k < |es| && es[k].Start?) ==> r.poller.timer.Some?
    ensures (forall k :: 0 <= k < |es| ==> es[k].Tick?) && s.poller.timer.None? ==> r == s
    decreases |es|
  {
    if |es| == 0 then s else Step(Run(s, es[..|es| - 1]), es[|es| - 1])
  }

  predicate TimerInRange(p: Poller) {
    p.timer.None? || BaseInterval <= p.timer.value <= MaxWait
  }

  /** Whatever happens, an installed timer's interval stays within 9 and 30 seconds. */
  lemma {:induction false} RunKeepsTimerInRange(s: Session, es: seq<PollEvent>)
    requires TimerInRange(s.poller)
    ensures TimerInRange(Run(s, es).poller)
    decreases |es|
  {
    if |es| > 0 {
      RunKeepsTimerInRange(s, es[..|es| - 1]);
    }
  }

  /** Polling only writes values: the page's ids, and so the next batch, stay as they were. */
  lemma {:induction false} RunKeepsIds(s: Session, es: seq<PollEvent>)
    ensures SameIds(Run(s, es).doc, s.doc)
    ensures Batch(Run(s, es).doc) == Batch(s.doc)
    decreases |es|
  {
    if |es| > 0 {
      RunKeepsIds(s, es[..|es| - 1]);
    }
    BatchSameIds(Run(s, es).doc, s.doc);
  }

  /** The failure count expected after a sequence of polls: failures since the last success. */
  function FailuresSinceSuccess(initial: nat, es: seq<PollEvent>): nat
    decreases |es|
  {
    if |es| == 0 then initial
    else if es[|es| - 1].fetch.Success? then 0
    else FailuresSinceSuccess(initial, es[..|es| - 1]) + 1
  }

  /**
   * While the page shows game ids and a timer is running, `tries` counts the
   * failures since the last success, and after a failure the timer's interval
   * is the backoff for that count.
   */
  lemma {:induction false} RunCountsFailures(s: Session, es: seq<PollEvent>)
    requires Batch(s.doc) != [] && s.poller.timer.Some?
    ensures Run(s, es).poller.tries == FailuresSinceSuccess(s.poller.tries, es)
    ensures Run(s, es).poller.timer.Some?
    ensures |es| > 0 && es[|es| - 1].fetch.Failure? ==>
      Run(s, es).poller.timer == Some(BackoffInterval(Run(s, es).poller.tries))
    ensures Batch(Run(s, es).doc) != []
    decreases |es|
  {
    if |es| > 0 {
      var prev := Run(s, es[..|es| - 1]);
      RunCountsFailures(s, es[..|es| - 1]);
      RunKeepsIds(s, es);
    }
  }

  /**
   * From an idle poller, a start followed by `n - 1` failing ticks (n
   * consecutive failures) leaves `tries == n` and the timer at
   * max(9000, min(30000, 2000 * 2^n)).
   */
  lemma ConsecutiveFailures(doc: Document, n: nat)
    requires Batch(doc) != [] && n >= 1
    ensures var es := [Start(Failure)] + seq(n - 1, _ => Tick(Failure));
      && Run(Session(Idle, doc), es).poller.tries == n
      && Run(Session(Idle, doc), es).poller.timer == Some(Max(BaseInterval, Min(MaxWait, BackoffUnit * Pow2(n))))
  {
    var es := [Start(Failure)] + seq(n - 1, _ => Tick(Failure));
    var s := Session(Idle, doc);
    var s1 := Step(s, Start(Failure));
    assert s1.poller.timer.Some?;
    RunCountsFailures(s1, es[1..]);
    assert Run(s, es) == Run(s1, es[1..]) by {
      RunPrepend(s, es[0], es[1..]);
      assert [es[0]] + es[1..] == es;
    }
    FailingTail(n - 1);
    assert es[1..] == seq(n - 1, _ => Tick(Failure));
  }

  lemma FailingTail(m: nat)
    ensures FailuresSinceSuccess(1, seq(m, _ => Tick(Failure))) == 1 + m
  {
    if m > 0 {
      var es := seq(m, _ => Tick(Failure));
      assert es[..m - 1] == seq(m - 1, _ => Tick(Failure));
      FailingTail(m - 1);
    }
  }

  lemma {:induction false} RunPrepend(s: Session, e: PollEvent, es: seq<PollEvent>)
    ensures Run(s, [e] + es) == Run(Step(s, e), es)
    decreases |es|
  {
    if |es| == 0 {
      assert [e] + es == [e];
      assert ([e] + es)[..0] == [];
    } else {
      assert ([e] + es)[..|es|] == [e] + es[..|es| - 1];
      RunPrepend(s, e, es[..|es| - 1]);
    }
  }
}

=== FILE: groups_poller.dfy ===
/**
 * The groups stats poller (`fetchGroupStatsOnce`): one request per
 * member-count placeholder, one after the other, each answer written on its
 * own; a failed request is caught and the loop goes on. Each request's
 * outcome is an input.
 */
module GroupsPoller {
  import opened Wrappers
  import opened JsText
  import opened Dom

  const DirectGroupsUrl := "https://groups.roblox.com/v1/groups/"

  /** How one group request ended: a parsed body whose `memberCount` may be missing, or an error. */
  datatype GroupFetch = Fetched(memberCount: Option<int>) | FetchError

  /** The group ids of the member-count placeholders, in document order (duplicates and empty ids kept). */
  function MemberIds(doc: Document): seq<string> {
    IdsWithPrefix(doc, MemberCountPrefix)
  }

  /** The request for one group: through the proxy when one is configured, else straight to the API. */
  function RequestUrl(proxy: Option<string>, groupId: string): (url: string)
    ensures !Truthy(proxy) ==> url == DirectGroupsUrl + groupId
    ensures Truthy(proxy) ==> url == proxy.value + "/groups/" + groupId
  {
    if !Truthy(proxy) then DirectGroupsUrl + groupId else proxy.value + "/groups/" + groupId
  }

  /**
   * Under one configuration no two groups share a request URL, so each
   * request asks for its own group.
   */
  lemma RequestUrlInjective(proxy: Option<string>, a: string, b: string)
    requires RequestUrl(proxy, a) == RequestUrl(proxy, b)
    ensures a == b
  {
    if Truthy(proxy) {
      ConcatCancel(proxy.value + "/groups/", a, b);
    } else {
      ConcatCancel(DirectGroupsUrl, a, b);
    }
  }

  /** The write one outcome asks for: the count when the body has one, nothing otherwise. */
  function GroupWrite(groupId: string, f: GroupFetch): Write {
    Write(MemberCountPrefix + groupId, if f.Fetched? then f.memberCount else None)
  }

  function GroupWrites(ids: seq<string>, responses: seq<GroupFetch>): (ws: seq<Write>)
    requires |ids| == |responses|
    ensures |ws| == |ids|
  {
    seq(|ids|, i requires 0 <= i < |ids| => GroupWrite(ids[i], responses[i]))
  }

  /**
   * One `fetchGroupStatsOnce`: the requests go out in placeholder order, and
   * the page ends as if each answer's write had been made in turn.
   */
  method PollGroupsOnce(doc: Document, proxy: Option<string>, responses: seq<GroupFetch>)
    returns (r: Document, requests: seq<string>)
    requires |responses| == |MemberIds(doc)|
    ensures |requests| == |MemberIds(doc)|
    ensures forall k :: 0 <= k < |requests| ==> requests[k] == RequestUrl(proxy, MemberIds(doc)[k])
    ensures r == ApplyWrites(doc, GroupWrites(MemberIds(doc), responses))
  {
    var ids := MemberIds(doc);
    r := doc;
    requests := [];
    var k := 0;
    while k < |ids|
      invariant 0 <= k <= |ids|
      invariant r == ApplyWrites(doc, GroupWrites(ids[..k], responses[..k]))
      invariant |requests| == k
      invariant forall i :: 0 <= i < k ==> requests[i] == RequestUrl(proxy, ids[i])
    {
      requests := requests + [RequestUrl(proxy, ids[k])];
      GroupWritesStep(doc, ids, responses, k);
      match responses[k] {
        case Fetched(Some(v)) =>
          r := UpdateStat(r, MemberCountPrefix + ids[k], v);
        case _ =>
      }
      k := k + 1;
    }
    assert ids[..k] == ids && responses[..k] == responses;
  }

  /** One more answer handled is one more write applied. */
  lemma GroupWritesStep(doc: Document, ids: seq<string>, responses: seq<GroupFetch>, k: nat)
    requires |ids| == |responses| && k < |ids|
    ensures ApplyWrites(doc, GroupWrites(ids[..k + 1], responses[..k + 1]))
         == ApplyWrite(ApplyWrites(doc, GroupWrites(ids[..k], responses[..k])), GroupWrite(ids[k], responses[k]))
  {
    var w := GroupWrite(ids[k], responses[k]);
    assert GroupWrites(ids[..k + 1], responses[..k + 1]) == GroupWrites(ids[..k], responses[..k]) + [w];
    ApplyWritesConcat(doc, GroupWrites(ids[..k], responses[..k]), [w]);
    assert [w][1..] == [];
  }

  /** The element the `k`-th member-count request writes to: always one is found. */
  function PlaceholderOf(doc: Document, k: nat): (j: nat)
    requires k < |MemberIds(doc)|
    ensures Find(doc, MemberCountPrefix + MemberIds(doc)[k]) == Some(j)
  {
    var ids := MemberIds(doc);
    IdsWithPrefixFromPage(doc, MemberCountPrefix);
    assert ids[k] in ids;
    assert MemberCountPrefix + ids[k] in IdsOf(doc);
    var j :| 0 <= j < |doc| && doc[j].id == MemberCountPrefix + ids[k];
    Find(doc, MemberCountPrefix + ids[k]).value
  }

  /**
   * A failure on one group never stops the others: the placeholder of a
   * group whose request succeeded with a count shows that count and is
   * marked loaded, unless a later request for the same group also brought a
   * count.
   */
  lemma ErrorsDoNotStopLaterGroups(doc: Document, responses: seq<GroupFetch>, k: nat)
    requires |responses| == |MemberIds(doc)|
    requires k < |responses| && responses[k].Fetched? && responses[k].memberCount.Some?
    requires forall m :: k < m < |responses| && MemberIds(doc)[m] == MemberIds(doc)[k] ==>
      !(responses[m].Fetched? && responses[m].memberCount.Some?)
    ensures var r := ApplyWrites(doc, GroupWrites(MemberIds(doc), responses));
      && r[PlaceholderOf(doc, k)].value == responses[k].memberCount.value
      && r[PlaceholderOf(doc, k)].loaded
  {
    var ids := MemberIds(doc);
    var ws := GroupWrites(ids, responses);
    var _ := PlaceholderOf(doc, k);
    assert ws[k].id == MemberCountPrefix + ids[k];
    forall m | k < m < |ws| && ws[m].id == ws[k].id
      ensures ws[m].value.None?
    {
      ConcatCancel(MemberCountPrefix, ids[m], ids[k]);
    }
    ApplyWritesLastWins(doc, ws, k);
  }

  /** A placeholder no successful count resolves to keeps its value and loaded flag. */
  lemma UntouchedPlaceholders(doc: Document, responses: seq<GroupFetch>, j: nat)
    requires |responses| == |MemberIds(doc)| && j < |doc|
    requires forall k :: 0 <= k < |responses| && responses[k].Fetched? && responses[k].memberCount.Some? ==>
      Find(doc, MemberCountPrefix + MemberIds(doc)[k]) != Some(j)
    ensures ApplyWrites(doc, GroupWrites(MemberIds(doc), responses))[j] == doc[j]
  {
    ApplyWritesFrame(doc, GroupWrites(MemberIds(doc), responses), j);
  }

  /** When every request fails, the page is left exactly as it was. */
  lemma AllFailedChangesNothing(doc: Document, responses: seq<GroupFetch>)
    requires |responses| == |MemberIds(doc)|
    requires forall k :: 0 <= k < |responses| ==> responses[k] == FetchError
    ensures ApplyWrites(doc, GroupWrites(MemberIds(doc), responses)) == doc
  {
    var r := ApplyWrites(doc, GroupWrites(MemberIds(doc), responses));
    forall j | 0 <= j < |doc|
      ensures r[j] == doc[j]
    {
      UntouchedPlaceholders(doc, responses, j);
    }
  }

  /**
   * Three groups, the second request failing: the first and third
   * placeholders still get their counts, the second is untouched.
   */
  lemma SecondOfThreeFails(doc: Document, a: int, c: int)
    requires |MemberIds(doc)| == 3
    requires Distinct(MemberIds(doc))
    ensures var ids := MemberIds(doc);
      var r := ApplyWrites(doc, GroupWrites(ids, [Fetched(Some(a)), FetchError, Fetched(Some(c))]));
      && r[PlaceholderOf(doc, 0)].value == a
      && r[PlaceholderOf(doc, 2)].value == c
      && r[PlaceholderOf(doc, 1)] == doc[PlaceholderOf(doc, 1)]
  {
    var ids := MemberIds(doc);
    var responses := [Fetched(Some(a)), FetchError, Fetched(Some(c))];
    ErrorsDoNotStopLaterGroups(doc, responses, 0);
    ErrorsDoNotStopLaterGroups(doc, responses, 2);
    var j1 := PlaceholderOf(doc, 1);
    forall k | 0 <= k < 3 && responses[k].Fetched? && responses[k].memberCount.Some?
      ensures Find(doc, MemberCountPrefix + ids[k]) != Some(j1)
    {
      if Find(doc, MemberCountPrefix + ids[k]) == Some(j1) {
        ConcatCancel(MemberCountPrefix, ids[k], ids[1]);
      }
    }
    UntouchedPlaceholders(doc, responses, j1);
  }
}

=== FILE: navigation.dfy ===
/**
 * Single-page navigation (`setupNavigation` / `activateSection`): which
 * section and which sidebar link carry the active flag, and the browser's
 * session history the script pushes fragments onto.
 */
module Navigation {
  import opened Wrappers
  import opened JsText

  /** An element that has an id: whether it is one of the page's `.section`s, and its active flag. */
  datatype El = El(id: string, isSection: bool, active: bool)

  /** A sidebar navigation link: its `href` and its active flag. */
  datatype Link = Link(href: string, active: bool)

  /** The session history: its entries' fragments (`""` or `#name`) and the current position. */
  datatype HistoryRaw = HistoryRaw(entries: seq<string>, index: nat)
  type History = h: HistoryRaw | h.index < |h.entries| witness HistoryRaw([""], 0)

  datatype Nav = Nav(elements: seq<El>, links: seq<Link>, hasViewAnimationsButton: bool, history: History)

  /** The current entry's fragment as stored: `""` or `#` followed by a name. The browser's
      `location.hash` reports `""` for a bare `#`; `DropFirst` treats the two alike. */
  function Hash(h: History): string {
    h.entries[h.index]
  }

  /**
   * `history.pushState(null, null, f)`: `f` becomes the current entry, the
   * entries up to the old position are kept, nothing lies ahead of the new
   * entry, and Back returns to where the push happened.
   */
  function Push(h: History, f: string): (r: History)
    ensures |r.entries| == h.index + 2 && r.entries[..h.index + 1] == h.entries[..h.index + 1]
    ensures Hash(r) == f
    ensures Traverse(r, 1) == r
    ensures Traverse(r, -1) == HistoryRaw(r.entries, h.index) && Hash(Traverse(r, -1)) == Hash(h)
  {
    HistoryRaw(h.entries[..h.index + 1] + [f], h.index + 1)
  }

  /** `document.getElementById(id)`: the first element with that id. */
  function Lookup(elements: seq<El>, id: string): (r: Option<nat>)
    ensures r.Some? ==> r.value < |elements| && elements[r.value].id == id && id != ""
    ensures r.Some? ==> forall j :: 0 <= j < r.value ==> elements[j].id != id
    ensures r.None? ==> id == "" || forall j :: 0 <= j < |elements| ==> elements[j].id != id
  {
    var ids := seq(|elements|, j requires 0 <= j < |elements| => elements[j].id);
    assert forall j :: 0 <= j < |elements| ==> ids[j] == elements[j].id;
    FirstIndex(ids, id)
  }

  /** `h && document.getElementById(h)`: the fragment is non-empty and names an element. */
  predicate Names(nav: Nav, target: string) {
    Lookup(nav.elements, target).Some?
  }

  /**
   * `activateSection(target)`: every section loses its active flag, the
   * element named `target` (when there is one) gains it, exactly the links
   * whose href is `#target` are active, and `#target` is pushed.
   */
  function Activate(nav: Nav, target: string): (r: Nav)
    ensures |r.elements| == |nav.elements| && |r.links| == |nav.links|
    ensures forall j :: 0 <= j < |r.elements| ==>
      && r.elements[j].id == nav.elements[j].id
      && r.elements[j].isSection == nav.elements[j].isSection
      && r.elements[j].active == (Lookup(nav.elements, target) == Some(j) || (!nav.elements[j].isSection && nav.elements[j].active))
    ensures forall i :: 0 <= i < |r.links| ==>
      r.links[i].href == nav.links[i].href && (r.links[i].active <==> nav.links[i].href == "#" + target)
    ensures r.history == Push(nav.history, "#" + target)
    ensures r.hasViewAnimationsButton == nav.hasViewAnimationsButton
  {
    var found := Lookup(nav.elements, target);
    Nav(
      seq(|nav.elements|, j requires 0 <= j < |nav.elements| =>
        var e := nav.elements[j];
        e.(active := found == Some(j) || (!e.isSection && e.active))),
      seq(|nav.links|, i requires 0 <= i < |nav.links| =>
        nav.links[i].(active := nav.links[i].href == "#" + target)),
      nav.hasViewAnimationsButton,
      Push(nav.history, "#" + target))
  }

  function ActiveSections(nav: Nav): set<nat> {
    set j | 0 <= j < |nav.elements| && nav.elements[j].isSection && nav.elements[j].active
  }

  /** The section `target` names, if it names one: the one section that should be active. */
  function TargetSection(nav: Nav, target: string): (r: set<nat>)
    ensures |r| <= 1
  {
    var found := Lookup(nav.elements, target);
    if found.Some? && nav.elements[found.value].isSection then {found.value} else {}
  }

  /** No event adds, removes or renames an element or a link, or takes the animations button away. */
  predicate SameLayout(nav: Nav, r: Nav) {
    && |r.elements| == |nav.elements| && |r.links| == |nav.links|
    && (forall j :: 0 <= j < |r.elements| ==>
          r.elements[j].id == nav.elements[j].id && r.elements[j].isSection == nav.elements[j].isSection)
    && (forall i :: 0 <= i < |r.links| ==> r.links[i].href == nav.links[i].href)
    && r.hasViewAnimationsButton == nav.hasViewAnimationsButton
  }

  /**
   * `r` shows `target` as the current section: the layout is `nav`'s, the
   * target's section is the only active one (no section is, when the target
   * names none), and exactly the links to `#target` are active.
   */
  predicate Highlights(nav: Nav, r: Nav, target: string) {
    && SameLayout(nav, r)
    && ActiveSections(r) == TargetSection(nav, target)
    && (forall i :: 0 <= i < |r.links| ==> (r.links[i].active <==> nav.links[i].href == "#" + target))
  }

  /**
   * After activating `target`, at most one section is active; exactly one
   * when `target` names a section, which is then the active one.
   */
  lemma ActivateLeavesOneSection(nav: Nav, target: string)
    ensures var r := Activate(nav, target);
      var found := Lookup(nav.elements, target);
      && (found.Some? && nav.elements[found.value].isSection ==> ActiveSections(r) == {found.value})
      && (found.None? || !nav.elements[found.value].isSection ==> ActiveSections(r) == {})
    ensures Highlights(nav, Activate(nav, target), target)
  {
  }

  /** `"#" + href.substring(1)` is the href itself when it starts with `#`. */
  lemma HashOfHref(href: string)
    ensures StartsWith(href, "#") ==> "#" + DropFirst(href) == href
  {
    if StartsWith(href, "#") {
      assert href[..1][0] == href[0];
    }
  }

  /**
   * A click on sidebar link `i`, unguarded: its href without the leading `#`
   * becomes the current section, a link to `#x` ends up active itself and
   * current in the address bar, and Back returns to the previous fragment.
   */
  function ClickLink(nav: Nav, i: nat): (r: Nav)
    requires i < |nav.links|
    ensures Highlights(nav, r, DropFirst(nav.links[i].href))
    ensures StartsWith(nav.links[i].href, "#") ==> r.links[i].active && Hash(r.history) == nav.links[i].href
    ensures Hash(Traverse(r.history, -1)) == Hash(nav.history)
  {
    var href := nav.links[i].href;
    ActivateLeavesOneSection(nav, DropFirst(href));
    HashOfHref(href);
    Activate(nav, DropFirst(href))
  }

  /**
   * A click on the "view animations" button, when the page has one: the
   * animations section becomes current and `#animations` is pushed.
   */
  function ClickViewAnimations(nav: Nav): (r: Nav)
    ensures nav.hasViewAnimationsButton ==>
      && Highlights(nav, r, "animations")
      && Hash(r.history) == "#animations"
      && Hash(Traverse(r.history, -1)) == Hash(nav.history)
    ensures !nav.hasViewAnimationsButton ==> r == nav
  {
    if nav.hasViewAnimationsButton then
      ActivateLeavesOneSection(nav, "animations");
      Activate(nav, "animations")
    else nav
  }

  /**
   * The start-up check of `location.hash`: when the fragment names an
   * element it becomes the current section and is pushed once more; an
   * empty or unknown fragment changes nothing.
   */
  function Follow(nav: Nav): (r: Nav)
    ensures !Names(nav, DropFirst(Hash(nav.history))) ==> r == nav
    ensures Names(nav, DropFirst(Hash(nav.history))) ==>
      && Highlights(nav, r, DropFirst(Hash(nav.history)))
      && r.history == Push(nav.history, "#" + DropFirst(Hash(nav.history)))
  {
    var h := DropFirst(Hash(nav.history));
    if Names(nav, h) then
      ActivateLeavesOneSection(nav, h);
      Activate(nav, h)
    else nav
  }

  /** The browser moving one entry back or forward; nothing happens at either end. */
  function Traverse(h: History, delta: int): (r: History)
    ensures r.entries == h.entries
    ensures 0 <= h.index + delta < |h.entries| ==> r.index == h.index + delta
    ensures !(0 <= h.index + delta < |h.entries|) ==> r == h
  {
    if 0 <= h.index + delta < |h.entries| then HistoryRaw(h.entries, h.index + delta) else h
  }

  /** Back undoes Forward and Forward undoes Back, wherever either is possible. */
  lemma TraverseRoundTrip(h: History)
    ensures 0 < h.index ==> Traverse(Traverse(h, -1), 1) == h
    ensures h.index + 1 < |h.entries| ==> Traverse(Traverse(h, 1), -1) == h
  {
  }

  /**
   * Back or forward followed by the `popstate` handler as the script has
   * it: when the fragment arrived at names an element it becomes current,
   * and `activateSection` pushes it again, dropping every entry after the
   * one arrived at.
   */
  function TraverseAsWritten(nav: Nav, delta: int): (r: Nav)
    ensures Traverse(nav.history, delta) == nav.history ==> r == nav
    ensures var moved := Traverse(nav.history, delta);
      var t := DropFirst(Hash(moved));
      && (moved != nav.history && !Names(nav, t) ==> r == nav.(history := moved))
      && (moved != nav.history && Names(nav, t) ==>
            Highlights(nav, r, t) && r.history == Push(moved, "#" + t))
  {
    var moved := Traverse(nav.history, delta);
    if moved == nav.history then nav else Follow(nav.(history := moved))
  }

  /** The `popstate` handler as intended: the section follows the fragment and the history is left alone. */
  function TraverseCorrected(nav: Nav, delta: int): (r: Nav)
    ensures r.history == Traverse(nav.history, delta)
    ensures r.history == nav.history ==> r == nav
    ensures var t := DropFirst(Hash(r.history));
      && (r.history != nav.history && !Names(nav, t) ==> r == nav.(history := r.history))
      && (r.history != nav.history && Names(nav, t) ==> Highlights(nav, r, t))
  {
    var moved := Traverse(nav.history, delta);
    if moved == nav.history then nav
    else
      var h := DropFirst(Hash(moved));
      if Names(nav, h) then
        ActivateLeavesOneSection(nav, h);
        Activate(nav, h).(history := moved)
      else nav.(history := moved)
  }

  /**
   * With the handler as written, once the previous entry names a section,
   * Back can never leave it: the entry is pushed again and the forward
   * history is gone. Page ["", "#a", "#b"] at "#b": two Backs still end on
   * "#a" with no way forward.
   */
  lemma BackIsStuckAsWritten()
    ensures var nav := Nav([El("a", true, false), El("b", true, true)], [], false,
                           HistoryRaw(["", "#a", "#b"], 2));
      var once := TraverseAsWritten(nav, -1);
      var twice := TraverseAsWritten(once, -1);
      && once.history == HistoryRaw(["", "#a", "#a"], 2)
      && twice.history == HistoryRaw(["", "#a", "#a"], 2)
      && Hash(twice.history) == "#a"
      && TraverseAsWritten(twice, 1) == twice
  {
    var nav := Nav([El("a", true, false), El("b", true, true)], [], false, HistoryRaw(["", "#a", "#b"], 2));
    assert DropFirst("#a") == "a";
    assert Lookup(nav.elements, "a") == Some(0);
    var once := TraverseAsWritten(nav, -1);
    assert once.history == HistoryRaw(["", "#a", "#a"], 2);
    assert Lookup(once.elements, "a") == Some(0);
  }

  /** With the corrected handler, Back then Forward restores the history exactly. */
  lemma BackThenForwardRestores(nav: Nav)
    requires nav.history.index > 0
    ensures TraverseCorrected(TraverseCorrected(nav, -1), 1).history == nav.history
  {
  }

  /** With the corrected handler, traversal never rewrites the entries, and Back reaches the first entry. */
  lemma {:induction false} BackReachesStart(nav: Nav, n: nat)
    requires n == nav.history.index
    ensures BackN(nav, n).history == HistoryRaw(nav.history.entries, 0)
    decreases n
  {
    if n > 0 {
      BackReachesStart(TraverseCorrected(nav, -1), n - 1);
    }
  }

  function BackN(nav: Nav, n: nat): Nav
    decreases n
  {
    if n == 0 then nav else BackN(TraverseCorrected(nav, -1), n - 1)
  }

  /** What the user or the browser does. */
  datatype NavEvent = ClickedLink(i: nat) | ClickedViewAnimations | Back | Forward

  /** One navigation event; history traversal uses the corrected handler. */
  function Step(nav: Nav, e: NavEvent): (r: Nav)
    ensures SameLayout(nav, r)
  {
    match e
    case ClickedLink(i) => if i < |nav.links| then ClickLink(nav, i) else nav
    case ClickedViewAnimations => ClickViewAnimations(nav)
    case Back => TraverseCorrected(nav, -1)
    case Forward => TraverseCorrected(nav, 1)
  }

  /** One navigation event with the `popstate` handler as the script has it. */
  function StepAsWritten(nav: Nav, e: NavEvent): (r: Nav)
    ensures SameLayout(nav, r)
  {
    match e
    case ClickedLink(i) => if i < |nav.links| then ClickLink(nav, i) else nav
    case ClickedViewAnimations => ClickViewAnimations(nav)
    case Back => TraverseAsWritten(nav, -1)
    case Forward => TraverseAsWritten(nav, 1)
  }

  /**
   * Every event leaves either the old active sections or at most one, so at
   * most one section stays active once at most one was, whichever
   * `popstate` handler runs.
   */
  lemma StepKeepsAtMostOneSection(nav: Nav, e: NavEvent)
    requires |ActiveSections(nav)| <= 1
    ensures |ActiveSections(Step(nav, e))| <= 1
    ensures |ActiveSections(StepAsWritten(nav, e))| <= 1
  {
  }
}

=== FILE: render.dfy ===
/**
 * Card rendering (`displayProjects`, `displayWorkedGroups`,
 * `displayAnimations`) as a pure map from a list of loosely-typed records to
 * the children of a named container.
 */
module Render {
  import opened Wrappers
  import opened JsText
  import opened Dom

  const DefaultImage := "imagem/default-project.png"

  const ProjectsContainer := "projectsContainer"
  const MyProjectsContainer := "myProjectsContainer"
  const AnimationsContainer := "animationsContainer"
  const WorkedContainer := "workedContainer"

  const NoProjectsText := "No projects available at this time."
  const NoGroupsText := "No groups available at this time."
  const NoAnimationsText := "No animations available at this time."

  /** A game or a generic project; every field may be missing. */
  datatype ProjectRecord = ProjectRecord(
    universeId: Option<string>,
    gameTitle: Option<string>,
    gameUrl: Option<string>,
    title: Option<string>,
    image: Option<string>)

  datatype GroupRecord = GroupRecord(
    groupId: Option<string>,
    groupTitle: Option<string>,
    groupUrl: Option<string>,
    image: Option<string>)

  datatype AnimationRecord = AnimationRecord(
    title: Option<string>,
    url: Option<string>,
    image: Option<string>)

  datatype CardKind = GameCard | ProjectCard | GroupCard | AnimationCard

  /** A stat placeholder: the element with `id` shows `value` under `label`. */
  datatype Stat = Stat(caption: string, id: string, value: int)

  /** An image whose real source is deferred until the lazy loader assigns it. */
  datatype Image = Image(deferredSrc: string, alt: string)

  datatype Node =
    | Placeholder(message: string)
    | Card(kind: CardKind, href: string, title: string, badge: Option<string>,
           stats: seq<Stat>, image: Image)

  /** The container element's children, keyed by container id; a missing key is a missing container. */
  type Page = map<string, seq<Node>>

  /** `createStat(label, id)`: a fresh placeholder under `label` that starts at zero. */
  function CreateStat(caption: string, id: string): (r: Stat)
    ensures r.id == id && r.caption == caption && r.value == 0
  {
    Stat(caption, id, 0)
  }

  /** A record list renders a placeholder when it is absent (`!list`) or empty. */
  predicate Absent<T>(list: Option<seq<T>>) {
    list.None? || |list.value| == 0
  }

  /** No text or link a card shows is empty, and every stat starts at zero. */
  predicate Presentable(n: Node) {
    n.Card? && n.href != "" && n.title != "" && n.image.deferredSrc != "" && n.image.alt != ""
    && forall s :: s in n.stats ==> s.value == 0
  }

  function ProjectCardOf(p: ProjectRecord, containerId: string): Node {
    var game := containerId == ProjectsContainer;
    var id := OrElse(p.universeId, "0");
    Card(
      if game then GameCard else ProjectCard,
      OrElse(p.gameUrl, "#"),
      if game then OrElse(p.gameTitle, "Untitled Project") else OrElse(p.title, "Untitled"),
      if game then Some("Roblox") else None,
      if game then [CreateStat("Playing", PlayingPrefix + id), CreateStat("Visits", VisitsPrefix + id)] else [],
      Image(OrElse(p.image, DefaultImage), OrElse(p.gameTitle, OrElse(p.title, "Project image"))))
  }

  function GroupCardOf(g: GroupRecord): Node {
    Card(
      GroupCard,
      OrElse(g.groupUrl, "#"),
      OrElse(g.groupTitle, "Untitled Group"),
      Some("Group"),
      [CreateStat("Members", MemberCountPrefix + OrElse(g.groupId, "0"))],
      Image(OrElse(g.image, DefaultImage), OrElse(g.groupTitle, "Group image")))
  }

  function AnimationCardOf(a: AnimationRecord): Node {
    Card(
      AnimationCard,
      OrElse(a.url, "#"),
      OrElse(a.title, "Untitled Animation"),
      None,
      [],
      Image(OrElse(a.image, DefaultImage), OrElse(a.title, "Animation image")))
  }

  /**
   * The children `displayProjects(projects, containerId)` leaves in its
   * container: one placeholder, or one card per record in input order.
   */
  function RenderProjects(projects: Option<seq<ProjectRecord>>, containerId: string): (r: seq<Node>)
    ensures Absent(projects) ==> r == [Placeholder(NoProjectsText)]
    ensures !Absent(projects) ==> |r| == |projects.value|
    ensures !Absent(projects) ==> forall i :: 0 <= i < |r| ==>
      var p := projects.value[i];
      && Presentable(r[i])
      && (Truthy(p.gameUrl) ==> r[i].href == p.gameUrl.value)
      && (!Truthy(p.gameUrl) ==> r[i].href == "#")
      && (Truthy(p.image) ==> r[i].image.deferredSrc == p.image.value)
      && (!Truthy(p.image) ==> r[i].image.deferredSrc == DefaultImage)
    ensures !Absent(projects) && containerId == ProjectsContainer ==> forall i :: 0 <= i < |r| ==>
      var p := projects.value[i];
      var id := OrElse(p.universeId, "0");
      && r[i].Card? && r[i].kind == GameCard && r[i].badge == Some("Roblox")
      && (Truthy(p.gameTitle) ==> r[i].title == p.gameTitle.value)
      && (!Truthy(p.gameTitle) ==> r[i].title == "Untitled Project")
      && r[i].stats == [Stat("Playing", PlayingPrefix + id, 0), Stat("Visits", VisitsPrefix + id, 0)]
    ensures !Absent(projects) && containerId != ProjectsContainer ==> forall i :: 0 <= i < |r| ==>
      var p := projects.value[i];
      && r[i].Card? && r[i].kind == ProjectCard && r[i].badge.None? && r[i].stats == []
      && (Truthy(p.title) ==> r[i].title == p.title.value)
      && (!Truthy(p.title) ==> r[i].title == "Untitled")
  {
    if Absent(projects) then [Placeholder(NoProjectsText)]
    else seq(|projects.value|, i requires 0 <= i < |projects.value| => ProjectCardOf(projects.value[i], containerId))
  }

  /** The children `displayWorkedGroups(groups)` leaves in `workedContainer`. */
  function RenderGroups(groups: Option<seq<GroupRecord>>): (r: seq<Node>)
    ensures Absent(groups) ==> r == [Placeholder(NoGroupsText)]
    ensures !Absent(groups) ==> |r| == |groups.value|
    ensures !Absent(groups) ==> forall i :: 0 <= i < |r| ==>
      var g := groups.value[i];
      && Presentable(r[i]) && r[i].kind == GroupCard && r[i].badge == Some("Group")
      && (Truthy(g.groupTitle) ==> r[i].title == g.groupTitle.value)
      && (!Truthy(g.groupTitle) ==> r[i].title == "Untitled Group")
      && (Truthy(g.groupUrl) ==> r[i].href == g.groupUrl.value)
      && (!Truthy(g.groupUrl) ==> r[i].href == "#")
      && r[i].stats == [Stat("Members", MemberCountPrefix + OrElse(g.groupId, "0"), 0)]
      && (Truthy(g.image) ==> r[i].image.deferredSrc == g.image.value)
      && (!Truthy(g.image) ==> r[i].image.deferredSrc == DefaultImage)
  {
    if Absent(groups) then [Placeholder(NoGroupsText)]
    else seq(|groups.value|, i requires 0 <= i < |groups.value| => GroupCardOf(groups.value[i]))
  }

  /** The children `displayAnimations(animations)` leaves in `animationsContainer`. */
  function RenderAnimations(animations: Option<seq<AnimationRecord>>): (r: seq<Node>)
    ensures Absent(animations) ==> r == [Placeholder(NoAnimationsText)]
    ensures !Absent(animations) ==> |r| == |animations.value|
    ensures !Absent(animations) ==> forall i :: 0 <= i < |r| ==>
      var a := animations.value[i];
      && Presentable(r[i]) && r[i].kind == AnimationCard && r[i].badge.None? && r[i].stats == []
      && (Truthy(a.title) ==> r[i].title == a.title.value)
      && (!Truthy(a.title) ==> r[i].title == "Untitled Animation")
      && (Truthy(a.url) ==> r[i].href == a.url.value)
      && (!Truthy(a.url) ==> r[i].href == "#")
      && (Truthy(a.image) ==> r[i].image.deferredSrc == a.image.value)
      && (!Truthy(a.image) ==> r[i].image.deferredSrc == DefaultImage)
  {
    if Absent(animations) then [Placeholder(NoAnimationsText)]
    else seq(|animations.value|, i requires 0 <= i < |animations.value| => AnimationCardOf(animations.value[i]))
  }

  /**
   * Replaces one container's children when the container exists; a missing
   * container makes the call a no-op, and other containers never change.
   */
  function Replace(page: Page, containerId: string, children: seq<Node>): (r: Page)
    ensures r.Keys == page.Keys
    ensures containerId in page ==> r[containerId] == children
    ensures forall c :: c in page && c != containerId ==> r[c] == page[c]
    ensures containerId !in page ==> r == page
  {
    if containerId in page then page[containerId := children] else page
  }

  /** `displayProjects(projects, containerId)`: nothing happens without the container. */
  function DisplayProjects(page: Page, projects: Option<seq<ProjectRecord>>, containerId: string): (r: Page)
    ensures r.Keys == page.Keys
    ensures containerId in page ==> r[containerId] == RenderProjects(projects, containerId)
    ensures forall c :: c in page && c != containerId ==> r[c] == page[c]
  {
    Replace(page, containerId, RenderProjects(projects, containerId))
  }

  /** `displayWorkedGroups(groups)` always targets `workedContainer`. */
  function DisplayWorkedGroups(page: Page, groups: Option<seq<GroupRecord>>): (r: Page)
    ensures r.Keys == page.Keys
    ensures WorkedContainer in page ==> r[WorkedContainer] == RenderGroups(groups)
    ensures forall c :: c in page && c != WorkedContainer ==> r[c] == page[c]
  {
    Replace(page, WorkedContainer, RenderGroups(groups))
  }

  /** `displayAnimations(animations)` always targets `animationsContainer`. */
  function DisplayAnimations(page: Page, animations: Option<seq<AnimationRecord>>): (r: Page)
    ensures r.Keys == page.Keys
    ensures AnimationsContainer in page ==> r[AnimationsContainer] == RenderAnimations(animations)
    ensures forall c :: c in page && c != AnimationsContainer ==> r[c] == page[c]
  {
    Replace(page, AnimationsContainer, RenderAnimations(animations))
  }

  /**
   * Rendering discards the previous children: two pages that differ only in
   * what the container held before are equal afterwards, and rendering the
   * same list twice is the same as rendering it once.
   */
  lemma DisplayProjectsDiscardsPrevious(page: Page, previous: seq<Node>, projects: Option<seq<ProjectRecord>>, containerId: string)
    requires containerId in page
    ensures DisplayProjects(page[containerId := previous], projects, containerId) == DisplayProjects(page, projects, containerId)
    ensures DisplayProjects(DisplayProjects(page, projects, containerId), projects, containerId)
         == DisplayProjects(page, projects, containerId)
  {
  }

  /** The groups and animations renders discard what their containers held, and repeating one changes nothing. */
  lemma DisplaysDiscardPrevious(page: Page, previous: seq<Node>, groups: Option<seq<GroupRecord>>, animations: Option<seq<AnimationRecord>>)
    ensures WorkedContainer in page ==>
      DisplayWorkedGroups(page[WorkedContainer := previous], groups) == DisplayWorkedGroups(page, groups)
    ensures AnimationsContainer in page ==>
      DisplayAnimations(page[AnimationsContainer := previous], animations) == DisplayAnimations(page, animations)
    ensures DisplayWorkedGroups(DisplayWorkedGroups(page, groups), groups) == DisplayWorkedGroups(page, groups)
    ensures DisplayAnimations(DisplayAnimations(page, animations), animations) == DisplayAnimations(page, animations)
  {
    ReplaceDiscards(page, previous, WorkedContainer, RenderGroups(groups));
    ReplaceDiscards(page, previous, AnimationsContainer, RenderAnimations(animations));
  }

  /** Replacing a container's children forgets what it held, and replacing them again with the same changes nothing. */
  lemma ReplaceDiscards(page: Page, previous: seq<Node>, c: string, xs: seq<Node>)
    ensures c in page ==> Replace(page[c := previous], c, xs) == Replace(page, c, xs)
    ensures Replace(Replace(page, c, xs), c, xs) == Replace(page, c, xs)
  {
  }

  /**
   * The renders touch different containers, so the page they leave does not
   * depend on the order in which their data arrives: a projects render into
   * any other container commutes with the groups and animations renders, two
   * projects renders into different containers commute, and so do the
   * groups and animations renders.
   */
  lemma DisplaysCommute(page: Page, c: string, projects: Option<seq<ProjectRecord>>,
                        c': string, projects': Option<seq<ProjectRecord>>,
                        groups: Option<seq<GroupRecord>>, animations: Option<seq<AnimationRecord>>)
    requires c != WorkedContainer && c != AnimationsContainer
    ensures DisplayWorkedGroups(DisplayAnimations(page, animations), groups)
         == DisplayAnimations(DisplayWorkedGroups(page, groups), animations)
    ensures DisplayProjects(DisplayWorkedGroups(page, groups), projects, c)
         == DisplayWorkedGroups(DisplayProjects(page, projects, c), groups)
    ensures DisplayProjects(DisplayAnimations(page, animations), projects, c)
         == DisplayAnimations(DisplayProjects(page, projects, c), animations)
    ensures c != c' ==>
      DisplayProjects(DisplayProjects(page, projects', c'), projects, c)
      == DisplayProjects(DisplayProjects(page, projects, c), projects', c')
  {
    var p, g, a := RenderProjects(projects, c), RenderGroups(groups), RenderAnimations(animations);
    ReplaceCommutes(page, AnimationsContainer, a, WorkedContainer, g);
    ReplaceCommutes(page, WorkedContainer, g, c, p);
    ReplaceCommutes(page, AnimationsContainer, a, c, p);
    if c != c' {
      ReplaceCommutes(page, c', RenderProjects(projects', c'), c, p);
    }
  }

  /** Replacing the children of two different containers gives the same page in either order. */
  lemma ReplaceCommutes(page: Page, a: string, xs: seq<Node>, b: string, ys: seq<Node>)
    requires a != b
    ensures Replace(Replace(page, a, xs), b, ys) == Replace(Replace(page, b, ys), a, xs)
  {
  }
}

=== FILE: rotation.dfy ===
/** The showcase image rotation (`initImageRotation`): every tick shows the next image, wrapping around. */
module Rotation {

  const ShowcaseImages: seq<string> := ["imagem/showcase.png", "imagem/showcase-2.png", "imagem/showcase-3.png"]

  /** `i = (i + 1) % list.length`. */
  function Next(i: nat): (r: nat)
    requires i < |ShowcaseImages|
    ensures r < |ShowcaseImages|
    ensures i + 1 < |ShowcaseImages| ==> r == i + 1
    ensures i + 1 == |ShowcaseImages| ==> r == 0
  {
    (i + 1) % |ShowcaseImages|
  }

  /** The index after `n` ticks from `i`. */
  function After(i: nat, n: nat): (r: nat)
    requires i < |ShowcaseImages|
    ensures r < |ShowcaseImages|
    decreases n
  {
    if n == 0 then i else Next(After(i, n - 1))
  }

  /** Ticking is counting modulo the number of images. */
  lemma {:induction false} AfterIsModular(i: nat, n: nat)
    requires i < |ShowcaseImages|
    ensures After(i, n) == (i + n) % |ShowcaseImages|
    decreases n
  {
    if n > 0 {
      AfterIsModular(i, n - 1);
    }
  }

  /** The rotation comes back to where it started every three ticks, and every image appears. */
  lemma RotationIsPeriodic(i: nat, n: nat)
    requires i < |ShowcaseImages|
    ensures After(i, n + |ShowcaseImages|) == After(i, n)
    ensures forall k :: 0 <= k < |ShowcaseImages| ==> After(0, k) == k
  {
    AfterIsModular(i, n + |ShowcaseImages|);
    AfterIsModular(i, n);
    forall k | 0 <= k < |ShowcaseImages|
      ensures After(0, k) == k
    {
      AfterIsModular(0, k);
    }
  }
}

=== FILE: text.dfy ===
/** The few JavaScript string idioms the portfolio script relies on. */
module JsText {
  import opened Wrappers

  /** JavaScript truthiness of an optional string field: present and not the empty string. */
  predicate Truthy(o: Option<string>) {
    o.Some? && o.value != ""
  }

  /** `field || fallback` on an optional string field. */
  function OrElse(o: Option<string>, fallback: string): (r: string)
    ensures Truthy(o) ==> r == o.value
    ensures !Truthy(o) ==> r == fallback
    ensures fallback != "" ==> r != ""
  {
    if Truthy(o) then o.value else fallback
  }

  predicate StartsWith(s: string, prefix: string) {
    |prefix| <= |s| && s[..|prefix|] == prefix
  }

  /** `s.replace(prefix, '')` for a string known to start with `prefix`. */
  function StripPrefix(s: string, prefix: string): (r: string)
    requires StartsWith(s, prefix)
    ensures prefix + r == s
  {
    s[|prefix|..]
  }

  lemma StripPrefixOfConcat(prefix: string, rest: string)
    ensures StartsWith(prefix + rest, prefix)
    ensures StripPrefix(prefix + rest, prefix) == rest
  {
    assert (prefix + rest)[..|prefix|] == prefix;
    assert (prefix + rest)[|prefix|..] == rest;
  }

  /** Two strings whose first characters differ start differently whatever follows. */
  lemma DistinctHeads(a: string, b: string, x: string, y: string)
    requires |a| > 0 && |b| > 0 && a[0] != b[0]
    ensures a + x != b + y
  {
    assert (a + x)[0] == a[0];
    assert (b + y)[0] == b[0];
  }

  /** Appending to a common prefix is injective. */
  lemma ConcatCancel(prefix: string, x: string, y: string)
    requires prefix + x == prefix + y
    ensures x == y
  {
    assert x == (prefix + x)[|prefix|..];
    assert y == (prefix + y)[|prefix|..];
  }

  /** `s.substring(1)`: drops the leading `#` of a location hash or an href. */
  function DropFirst(s: string): (r: string)
    ensures |s| > 0 ==> [s[0]] + r == s
    ensures |s| == 0 ==> r == ""
  {
    if |s| == 0 then "" else s[1..]
  }

  function DigitChar(d: nat): (c: char)
    requires d < 10
    ensures '0' <= c <= '9'
  {
    (48 + d) as char
  }

  /** The decimal rendering of a number in a template literal (`${n}`). */
  function Decimal(n: nat): (r: string)
    ensures |r| >= 1
    ensures n < 10 <==> |r| == 1
    ensures forall i :: 0 <= i < |r| ==> '0' <= r[i] <= '9'
    decreases n
  {
    if n < 10 then [DigitChar(n)] else Decimal(n / 10) + [DigitChar(n % 10)]
  }

  /** Distinct numbers render to distinct strings, so ids built from them never collide. */
  lemma {:induction false} DecimalInjective(a: nat, b: nat)
    requires Decimal(a) == Decimal(b)
    ensures a == b
    decreases a
  {
    if a < 10 {
      assert DigitChar(a) == Decimal(a)[0] == Decimal(b)[0] == DigitChar(b);
    } else {
      var ra, rb := Decimal(a), Decimal(b);
      assert ra == Decimal(a / 10) + [DigitChar(a % 10)];
      assert rb == Decimal(b / 10) + [DigitChar(b % 10)];
      assert ra[..|ra| - 1] == Decimal(a / 10);
      assert rb[..|rb| - 1] == Decimal(b / 10);
      assert ra[|ra| - 1] == DigitChar(a % 10);
      assert rb[|rb| - 1] == DigitChar(b % 10);
      DecimalInjective(a / 10, b / 10);
    }
  }

  /** `document.getElementById(id)` over the ids of a page in document order: the first match; "" never matches. */
  function FirstIndex(ids: seq<string>, id: string): (r: Option<nat>)
    ensures r.Some? ==> r.value < |ids| && ids[r.value] == id && id != ""
    ensures r.Some? ==> forall j :: 0 <= j < r.value ==> ids[j] != id
    ensures r.None? ==> id == "" || forall j :: 0 <= j < |ids| ==> ids[j] != id
    decreases |ids|
  {
    if id == "" || |ids| == 0 then None
    else if ids[0] == id then Some(0)
    else match FirstIndex(ids[1..], id)
      case None => None
      case Some(k) => Some(k + 1)
  }

  predicate Distinct(s: seq<string>) {
    forall i, j :: 0 <= i < j < |s| ==> s[i] != s[j]
  }

  /** A non-empty list is its front followed by its last element. */
  lemma SplitLast(xs: seq<string>)
    requires |xs| > 0
    ensures xs[..|xs| - 1] + [xs[|xs| - 1]] == xs
  {
  }
}

=== FILE: wiring.dfy ===
/**
 * How rendering and polling meet: the stat placeholders the cards carry are
 * exactly the elements the pollers later find by id prefix.
 */
module Wiring {
  import opened Wrappers
  import opened JsText
  import opened Dom
  import opened Render
  import GamesPoller
  import GroupsPoller

  function StatElement(s: Stat): Element {
    Element(s.id, s.value, false)
  }

  /** The stat placeholder elements one node puts on the page, in document order. */
  function CardElements(stats: seq<Stat>): Document
    decreases |stats|
  {
    if |stats| == 0 then [] else [StatElement(stats[0])] + CardElements(stats[1..])
  }

  /** The stat placeholder elements a list of nodes puts on the page, in document order. */
  function StatElements(nodes: seq<Node>): (doc: Document)
    decreases |nodes|
  {
    if |nodes| == 0 then []
    else
      var last := nodes[|nodes| - 1];
      StatElements(nodes[..|nodes| - 1]) + (if last.Card? then CardElements(last.stats) else [])
  }

  /**
   * A placeholder fresh from `createStat` shows zero and is not loaded; an
   * `updateStatElement` for its id then shows the value and marks it loaded.
   */
  lemma CreatedStatTakesUpdate(caption: string, id: string, v: int)
    requires id != ""
    ensures StatElement(CreateStat(caption, id)) == Element(id, 0, false)
    ensures UpdateStat([StatElement(CreateStat(caption, id))], id, v) == [Element(id, v, true)]
  {
    assert IdList([Element(id, 0, false)])[0] == id;
  }

  /** Cards without stats put no placeholder on the page. */
  lemma {:induction false} NoStatsNoElements(nodes: seq<Node>)
    requires forall i :: 0 <= i < |nodes| ==> nodes[i].Placeholder? || nodes[i].stats == []
    ensures StatElements(nodes) == []
    decreases |nodes|
  {
    if |nodes| > 0 {
      NoStatsNoElements(nodes[..|nodes| - 1]);
    }
  }

  lemma NotPlaying(x: string)
    ensures !StartsWith(VisitsPrefix + x, PlayingPrefix)
  {
    assert (VisitsPrefix + x)[0] == 'v';
    if |PlayingPrefix| <= |VisitsPrefix + x| {
      assert (VisitsPrefix + x)[..|PlayingPrefix|][0] == 'v';
    }
  }

  /** A game card's two placeholders yield its universe id once to the `playing-` query. */
  lemma GameCardIds(x: string)
    ensures IdsWithPrefix(CardElements([Stat("Playing", PlayingPrefix + x, 0), Stat("Visits", VisitsPrefix + x, 0)]), PlayingPrefix) == [x]
  {
    var stats := [Stat("Playing", PlayingPrefix + x, 0), Stat("Visits", VisitsPrefix + x, 0)];
    var tail := [Element(PlayingPrefix + x, 0, false), Element(VisitsPrefix + x, 0, false)];
    assert stats[1..][1..] == [];
    assert CardElements(stats[1..]) == [tail[1]];
    assert CardElements(stats) == tail;
    StripPrefixOfConcat(PlayingPrefix, x);
    NotPlaying(x);
    assert tail[..1] == [tail[0]] && tail[..2] == tail;
    assert tail[..1][..0] == [];
    assert IdsWithPrefix(tail[..1], PlayingPrefix) == [x];
  }

  /** A group card's placeholder yields its group id to the `memberCount-` query. */
  lemma GroupCardIds(x: string)
    ensures IdsWithPrefix(CardElements([Stat("Members", MemberCountPrefix + x, 0)]), MemberCountPrefix) == [x]
  {
    var tail := [Element(MemberCountPrefix + x, 0, false)];
    assert [Stat("Members", MemberCountPrefix + x, 0)][1..] == [];
    assert CardElements([Stat("Members", MemberCountPrefix + x, 0)]) == tail;
    StripPrefixOfConcat(MemberCountPrefix, x);
    assert tail[..0] == [];
  }

  /** Cards that each carry a `playing-<x>` and a `visits-<x>` placeholder yield the `x`s, in order. */
  lemma {:induction false} PlayingIdsOfCards(nodes: seq<Node>, xs: seq<string>)
    requires |nodes| == |xs|
    requires forall i :: 0 <= i < |nodes| ==>
      nodes[i].Card? && nodes[i].stats == [Stat("Playing", PlayingPrefix + xs[i], 0), Stat("Visits", VisitsPrefix + xs[i], 0)]
    ensures IdsWithPrefix(StatElements(nodes), PlayingPrefix) == xs
    decreases |nodes|
  {
    if |nodes| > 0 {
      var n := |nodes| - 1;
      var init, last := nodes[..n], nodes[n];
      PlayingIdsOfCards(init, xs[..n]);
      var a, b := StatElements(init), CardElements(last.stats);
      assert StatElements(nodes) == a + b;
      IdsWithPrefixConcat(a, b, PlayingPrefix);
      assert last.stats == [Stat("Playing", PlayingPrefix + xs[n], 0), Stat("Visits", VisitsPrefix + xs[n], 0)];
      GameCardIds(xs[n]);
      assert IdsWithPrefix(b, PlayingPrefix) == [xs[n]];
      assert IdsWithPrefix(a, PlayingPrefix) == xs[..n];
      SplitLast(xs);
    }
  }

  /** Cards that each carry one `memberCount-<x>` placeholder yield the `x`s, in order. */
  lemma {:induction false} MemberIdsOfCards(nodes: seq<Node>, xs: seq<string>)
    requires |nodes| == |xs|
    requires forall i :: 0 <= i < |nodes| ==>
      nodes[i].Card? && nodes[i].stats == [Stat("Members", MemberCountPrefix + xs[i], 0)]
    ensures IdsWithPrefix(StatElements(nodes), MemberCountPrefix) == xs
    decreases |nodes|
  {
    if |nodes| > 0 {
      var n := |nodes| - 1;
      var init, last := nodes[..n], nodes[n];
      MemberIdsOfCards(init, xs[..n]);
      var a, b := StatElements(init), CardElements(last.stats);
      assert StatElements(nodes) == a + b;
      IdsWithPrefixConcat(a, b, MemberCountPrefix);
      assert last.stats == [Stat("Members", MemberCountPrefix + xs[n], 0)];
      GroupCardIds(xs[n]);
      assert IdsWithPrefix(b, MemberCountPrefix) == [xs[n]];
      assert IdsWithPrefix(a, MemberCountPrefix) == xs[..n];
      SplitLast(xs);
    }
  }

  function UniverseIds(projects: seq<ProjectRecord>): (xs: seq<string>)
    ensures |xs| == |projects|
  {
    seq(|projects|, i requires 0 <= i < |projects| => OrElse(projects[i].universeId, "0"))
  }

  /**
   * After the games container is rendered, the games poller asks for the
   * cards' universe ids (a missing one as "0"), de-duplicated and capped at
   * fifty; a non-empty list always leads to a request. Cards rendered
   * anywhere else carry no stats at all.
   */
  lemma GamesPollerSeesRenderedCards(projects: seq<ProjectRecord>, containerId: string)
    ensures containerId == ProjectsContainer ==>
      GamesPoller.PlayingIds(StatElements(RenderProjects(Some(projects), containerId))) == UniverseIds(projects)
    ensures containerId == ProjectsContainer && |projects| > 0 ==>
      GamesPoller.Batch(StatElements(RenderProjects(Some(projects), containerId))) != []
    ensures containerId != ProjectsContainer ==> StatElements(RenderProjects(Some(projects), containerId)) == []
  {
    var nodes := RenderProjects(Some(projects), containerId);
    if containerId == ProjectsContainer {
      if |projects| > 0 {
        PlayingIdsOfCards(nodes, UniverseIds(projects));
      } else {
        assert StatElements(nodes) == [];
        assert IdsWithPrefix([], PlayingPrefix) == [];
      }
      var xs := UniverseIds(projects);
      assert forall i :: 0 <= i < |xs| ==> xs[i] != "";
      assert forall x :: x in xs ==> x != "";
      GamesPoller.NonEmptyKeepsAll(xs);
    } else {
      NoStatsNoElements(nodes);
    }
  }

  function GroupIds(groups: seq<GroupRecord>): (xs: seq<string>)
    ensures |xs| == |groups|
  {
    seq(|groups|, i requires 0 <= i < |groups| => OrElse(groups[i].groupId, "0"))
  }

  /** After the groups container is rendered, the groups poller makes one request per card, in card order. */
  lemma GroupsPollerSeesRenderedCards(groups: seq<GroupRecord>)
    ensures GroupsPoller.MemberIds(StatElements(RenderGroups(Some(groups)))) == GroupIds(groups)
  {
    var nodes := RenderGroups(Some(groups));
    if |groups| > 0 {
      MemberIdsOfCards(nodes, GroupIds(groups));
    } else {
      NoStatsNoElements(nodes);
      assert IdsWithPrefix([], MemberCountPrefix) == [];
    }
  }
}

=== FILE: wrappers.dfy ===
/** Optional values: a loosely-typed record field or a JSON member may be absent. */
module Wrappers {

  datatype Option<+T> = None | Some(value: T) {

    /** Returns the value held in Some, or `default` when absent (JavaScript `??`). */
    function GetOr(default: T): T {
      match this
      case Some(v) => v
      case None => default
    }
  }
}
